=== FILE: README.md ===
# A verified model of the raytracer's decision logic

This project models the core of a small Rust path tracer, in the manner of "Ray
Tracing in One Weekend". It covers:

- intervals;
- rays;
- hit records and face orientation;
- the ray–sphere intersection and its choice of root;
- the closest-hit scan over a list of spheres;
- the three materials and their `scatter`;
- the camera's `ray_colour` recursion, image height and primary rays;
- the PPM text `render` writes, produced by `write_colour`.

It also proves properties of that model. `f64` arithmetic is modelled with exact `real`s.

The library functions whose code is not part of this model are passed in as the fields of
`Vectors.Linalg`:

- square root;
- `unit`, `reflect` and `refract`;
- `near_zero`.

A property that depends on how one of them behaves names that behaviour as a law in its
`requires`:

- `SqrtLaw`: the square root of a non-negative number is non-negative and squares back to
  it.
- `UnitLaw`: normalising a vector keeps the sign of its dot products.
- `ReflectLaw`: reflecting about a unit normal negates the normal component.
- `UnitBoundedLaw`: the y component of a normalised vector lies in `[-1, 1]`.

Random draws are explicit arguments:

- the unit vector of a diffuse or fuzzy bounce;
- the two pixel offsets;
- the defocus disk point;
- the ray time.

A `render` takes every draw it makes from a `Cameras.Draws` value, indexed by pixel and
sample.

Module layout, following the source files:

| file | module | source |
|---|---|---|
| wrappers.dfy | `Wrappers` | `Option` |
| arith.dfy | `RealArith` | facts about products, used by the proofs |
| vectors.dfy | `Vectors` | the `linalg` vector operations used, and the laws above |
| casts.dfy | `Casts` | Rust's saturating `as` conversion from `f64` to an unsigned type |
| interval.dfy | `Intervals` | src/interval.rs |
| ray.dfy | `Rays` | src/ray.rs |
| hittable.dfy | `HitRecords` | src/hittable.rs |
| sphere.dfy | `Spheres` | src/sphere.rs |
| hittable_list.dfy | `HittableLists` | src/hittable_list.rs |
| materials.dfy, scatter.dfy | `Materials`, `Scattering` | src/material.rs, as a closed datatype with dispatch |
| lambertian.dfy, metals.dfy, dielectric.dfy | `Lambertians`, `Metals`, `Dielectrics` | the three materials |
| text.dfy | `Text` | decimal formatting with `{}`, and reading it back |
| colour.dfy | `Colours` | src/colour.rs |
| camera.dfy | `Cameras` | src/camera.rs |

Modelling choices:

- **Hits return a value.** A `hit(&ray, ray_t, &mut record) -> bool` becomes a pure
  function that returns the flag and the record. On a miss the record it returns is the
  one it was given.
- **The list scan is also a loop.** `HittableLists.Hit` is written as the source's own loop.
  The pure left fold `HittableLists.Closest` is its reference definition, and the
  lemmas about the search are stated over it.
- **The world is a function.** `ray_colour` and `render` accept any `Hittable`. They see
  it as a function from a ray and an interval to an optional record. `Cameras.SphereWorld`
  is the world made from a list of spheres.
- **Scatter returns an `Option`.** A `scatter` returns `Some` of the attenuation and the
  scattered ray when the source returns `true`.
- **Two-argument `Ray::new` gets time 0.** `Lambertian::scatter` and
  `Dielectric::scatter` call `Ray::new` with two arguments, but src/ray.rs:11 takes three.
  These calls are modelled as passing `None`, so the scattered ray has time 0.
- **A channel never exceeds 254.** The intensity interval is `[0, 0.999]` (src/colour.rs:27),
  so `255 · 0.999` truncates to 254. The model keeps that, as the code is written.
- **IEEE outcomes where the reals would be undefined.** A few branches that the exact
  reals would leave undefined get the result IEEE arithmetic gives:
  - A zero ray direction makes both roots `0/0`, so no sphere is hit.
  - A negative `1 − cos²θ` makes the square root NaN, so the dielectric refracts.
  - With zero samples, the scale factor is `+∞`.
  - With an aspect ratio of 0, the image height saturates for a positive width. For width 0
    the NaN casts to 0, and the height is raised to 1.

## Model

| member | source | states |
|---|---|---|
| Intervals.Contains | src/interval.rs:12-14 | Membership includes both ends, holds exactly for `min ≤ x ≤ max` with finite bounds, and holds for every `x` in the unbounded interval. |
| Intervals.Surrounds | src/interval.rs:16-18 | Membership excludes both ends, holds exactly for `min < x < max`, and implies `Contains`. |
| Intervals.Clamp | src/interval.rs:20-28 | The result lies in `[min, max]` when `min ≤ max`. A contained `x` is returned unchanged, and any other `x` gives one of the two bounds. |
| Intervals.ClampIdempotent | src/interval.rs:20-28 | Clamping a clamped value changes nothing. |
| Intervals.ClampMonotone | src/interval.rs:20-28 | Clamping keeps the order of its inputs. |
| Intervals.Empty | src/interval.rs:30-35 | `empty()` contains and surrounds no real. |
| Intervals.Universe | src/interval.rs:37-42 | `universe()` contains and surrounds every real. |
| Intervals.SurroundsNarrowed | src/hittable_list.rs:48 | Cutting the upper end down to `c` keeps exactly the points that were inside and are below `c`. |
| Rays.NewRay | src/ray.rs:11-29 | The accessors give back the origin and direction passed in. The time is the one given, or 0 for `None`. |
| Rays.At | src/ray.rs:31-33 | `at(t) − origin` is `t · direction`, and `at(0)` is the origin. |
| Rays.AtShift | src/ray.rs:31-33 | `at(s + t) = at(s) + t · direction`. |
| Rays.AtOffset | src/ray.rs:31-33 | `at(t) − c = (origin − c) + t · direction`, the form the sphere test expands. |
| HitRecords.SetFaceNormal | src/hittable.rs:16-23 | `front_face` holds iff the direction opposes the outward normal. The normal is the outward normal on the front face and its negation otherwise, so it never points along the ray and keeps its length. Point, material and distance are untouched. |
| Spheres.QuadraticOf | src/sphere.rs:45-48 | The coefficient `a` is non-negative, and zero exactly for a zero direction. |
| Spheres.OnSurfaceIffRoot | src/sphere.rs:45-49 | `at(t)` lies on the sphere iff `t` is a root of the quadratic. |
| Spheres.NoRootBelowZero | src/sphere.rs:49-53 | A negative discriminant leaves no root, so returning `false` there misses no intersection. |
| Spheres.RootsOfQuadratic | src/sphere.rs:54-59 | With a non-negative discriminant, the roots are exactly `(−half_b ∓ √disc)/a`. |
| Spheres.NearRootFirst | src/sphere.rs:56-59 | For `a > 0` the first root tried is the smaller one. |
| Spheres.RootChoice | src/sphere.rs:51-63 | There is no root for a negative discriminant or a zero direction. The smaller root is taken when it is strictly inside `ray_t`; otherwise the larger one is taken exactly when it is inside. |
| Spheres.RecordAt | src/sphere.rs:65-69 | The record holds the root as distance, `at(root)` as point and the sphere's material. The normal is the outward normal `(p − centre)/radius` on a front face and its negation otherwise, so it never points along the ray. For a positive radius the hit is on the front face iff the ray heads towards the centre, and at a point of the surface the normal has unit length. |
| Spheres.Hit | src/sphere.rs:39-72 | A miss returns the record unchanged. A negative discriminant misses. A hit's distance lies strictly inside `ray_t`, and the record is the one built at the chosen root. |
| Spheres.HitWritesEveryField | src/sphere.rs:65-69 | On a hit every field of the record is written, so the record passed in does not affect the outcome. |
| Spheres.HitTakesMaterial | src/sphere.rs:69 | A hit record carries the sphere's material. |
| Spheres.HitIsNearestIntersection | src/sphere.rs:39-72 | For a non-zero direction: there is a hit iff the ray meets the sphere strictly inside `ray_t`. The reported distance is the nearest such meeting point. |
| Spheres.ZeroDirectionMisses | src/sphere.rs:46-63 | A zero direction misses: `a` is 0, so both roots are `0/0`, which no interval surrounds. |
| Spheres.HitOnSurface | src/sphere.rs:45-68 | The hit point lies on the sphere. The stored normal has unit length and does not point along the ray. |
| Spheres.HitNarrowed | src/hittable_list.rs:48-51 | Querying with the upper end cut to `c` hits iff the full query hits at a distance below `c`, with the same record. |
| HittableLists.New | src/hittable_list.rs:15-19 | A new list is empty. |
| HittableLists.FromObject | src/hittable_list.rs:21-25 | The list holds exactly the one object. |
| HittableLists.Add | src/hittable_list.rs:31-33 | The object is appended at the end, and the earlier objects are kept in order. |
| HittableLists.Clear | src/hittable_list.rs:27-29 | The list becomes empty. |
| HittableLists.Closest | src/hittable_list.rs:37-56 | A found record lies strictly inside `ray_t` and carries the material of one of the listed spheres. |
| HittableLists.PickFindsAHit | src/hittable_list.rs:45-55 | The scan with a shrinking bound finds a record iff some object hits inside the bound. |
| HittableLists.PickIsFirstMinimum | src/hittable_list.rs:45-55 | The scan keeps the record of the first object hit at the least distance. Ties go to the earlier object because the shrinking bound is exclusive. |
| HittableLists.ClosestIsPick | src/hittable_list.rs:43-55 | The fold over the spheres equals the scan over their independent hits. |
| HittableLists.ClosestIsFirstMinimum | src/hittable_list.rs:43-55 | The result is `true` iff some sphere is hit inside `ray_t`. The record is then that of the first sphere hit at the least distance. |
| HittableLists.ClosestIsNearestIntersection | src/hittable_list.rs:37-56 | For a non-zero direction: the list reports a hit iff the ray meets some sphere strictly inside `ray_t`. The reported distance is at most every such meeting distance. |
| HittableLists.ZeroDirectionMisses | src/hittable_list.rs:43-55 | A ray with a zero direction hits no sphere of the list. |
| HittableLists.ClosestStep | src/hittable_list.rs:47-52 | One pass of the loop body: the result over one more sphere is that sphere's hit against the interval cut at the best distance so far, or the previous result on a miss. The reused `temp_rec` does not matter. |
| HittableLists.Hit | src/hittable_list.rs:37-56 | The loop returns exactly the reference search's outcome and record. On a miss, including the empty list, the caller's record is left unchanged. Its invariant keeps the record and the bound equal to the nearest hit so far. |
| Lambertians.Scatter | src/lambertian.rs:16-35 | A Lambertian always scatters, with the albedo as attenuation, from the hit point, at time 0. The direction is `normal + r`, or the normal when that is near zero. The direction is non-zero when `near_zero` accepts the zero vector and the normal is non-zero. |
| Metals.New | src/metals.rs:12-15 | The stored fuzz lies in `[0, 1]`: an in-range fuzz is kept, and any other is clamped to the nearer end. |
| Metals.Scatter | src/metals.rs:18-33 | A metal scatters iff the fuzzed reflection `unit(reflect(unit(d), n)) + fuzz·r` points out of the surface. It then attenuates by the albedo and keeps the incoming ray's time. |
| Metals.MirrorScattersFromFront | src/metals.rs:26-32 | Under the `unit` and `reflect` laws, a perfect mirror scatters exactly the rays that arrive against the normal. |
| Dielectrics.Ratio | src/dielectric.rs:24-28 | The ratio is `1/η` on the front face and `η` on the back face. |
| Dielectrics.CosTheta | src/dielectric.rs:32 | `cos θ = min(−d·n, 1)`, so it never exceeds 1. |
| Dielectrics.CannotRefractIff | src/dielectric.rs:33-35 | The ray cannot refract iff `ratio > 0` and `ratio² (1 − cos²θ) > 1`. |
| Dielectrics.Scatter | src/dielectric.rs:15-46 | A dielectric always scatters, with attenuation `(1, 1, 1)`, from the hit point, at time 0. It reflects when it cannot refract and refracts otherwise. |
| Dielectrics.RatioAtMostOneRefracts | src/dielectric.rs:33-41 | With a ratio of at most 1 the ray always refracts. |
| Dielectrics.GrazingReflectsAboveOne | src/dielectric.rs:33-35 | At grazing incidence (`cos θ = 0`) the ray reflects iff the ratio exceeds 1. |
| Dielectrics.FrontFaceIntoDenserRefracts | src/dielectric.rs:24-41 | Entering a medium with `η ≥ 1` through the front face always refracts. |
| Scattering.Scatter | src/material.rs:3-11 | Dispatch: only a metal absorbs. A scattered ray starts at the hit point, and the attenuation is the albedo, or white for a dielectric. |
| Scattering.PassiveAttenuation | src/material.rs:3-11 | A material whose albedo lies in the unit cube attenuates by a colour in the unit cube. |
| Casts.SaturatingCast | src/camera.rs:78 | `as u32`: at most the type's maximum, 0 at or below zero, the maximum at or above it, and the floor in between. |
| Casts.SaturatingCastMonotone | src/colour.rs:31-33 | The conversion keeps the order of its inputs. |
| Text.NatToString | src/colour.rs:28-34 | `{}` writes a number as digits without leading zeros. |
| Text.ParseNatToString | src/colour.rs:28-34 | Reading back the digits of a number gives the number. |
| Text.NatToStringParse | src/colour.rs:28-34 | Every digit string without leading zeros is the text of the number it denotes. |
| Colours.LinearToGamma | src/colour.rs:5-10 | Inputs at or below 0 give 0. Under the square-root law the result is non-negative, and squares back to a positive input. |
| Colours.Quantise | src/colour.rs:27-33 | After clamping to `[0, 0.999]` and scaling by 255, the channel is an integer in `[0, 254]`. It is 0 at or below 0, 254 from 0.999 up, and `⌊255·g⌋` in between. |
| Colours.Channel | src/colour.rs:13-33 | A channel is at most 254, and 0 for a non-positive sum. With zero samples it is 254 exactly for a positive sum. |
| Colours.ChannelMonotone | src/colour.rs:13-33 | For a fixed sample count, a larger sum never gives a smaller channel. |
| Colours.ColourLine | src/colour.rs:28-36 | The text of a pixel is one line: it ends in a newline and holds no other. |
| Colours.ColourLineRoundTrip | src/colour.rs:28-36 | The line `"r g b\n"` reads back as the three channels. |
| Colours.WriteColour | src/colour.rs:12-37 | `write_colour` keeps the earlier text and appends exactly one newline-terminated line. That line reads back as the pixel's three channels. |
| Cameras.ImageHeight | src/camera.rs:78-81 | The height lies in `[1, u32::MAX]`. It is the truncation of `width / aspect_ratio` when that is in range, and 1 when that is below 1. |
| Cameras.Initialise | src/camera.rs:76-83 | After `initialise` the height is at least 1, the centre is `lookfrom`, and the configuration is untouched. |
| Cameras.JitterAsWrittenOneSided | src/camera.rs:163-167 | The offset as written stays in `(−0.5, 0]`, so it never reaches the positive half of the pixel. |
| Cameras.Jitter | src/camera.rs:163-167 | The corrected offset lies in `[−0.5, 0.5)` exactly for draws in `[0, 1)`. |
| Cameras.JitterCoversPixel | src/camera.rs:163-167 | Every offset in `[−0.5, 0.5)` comes from exactly one draw. |
| Cameras.PixelSampleSquareAsWritten | src/camera.rs:163-167 | As written, for draws in `[0, 1)` the offset is `u·Δu + v·Δv` with `u` and `v` in `(−0.5, 0]`, only the upper-left quarter of the pixel's square. Zero draws give no offset. |
| Cameras.PixelSampleSquare | src/camera.rs:163-167 | With the corrected offset `−0.5 + r` of the finding below: for draws in `[0, 1)` the offset is `u·Δu + v·Δv` with `u` and `v` in `[−0.5, 0.5)`, a point of the pixel's whole square. The middle draws give no offset. |
| Cameras.DefocusDiskSample | src/camera.rs:170-173 | The middle of the unit disk gives the camera centre. Every sample stays in the plane through the centre spanned by the disk axes. |
| Cameras.GetRay | src/camera.rs:143-160 | The ray starts at the centre without defocus, and at the disk sample otherwise. It passes through the jittered pixel point at parameter 1 and carries the drawn time. |
| Cameras.CentredRay | src/camera.rs:143-160 | Without defocus and with centred draws, the primary ray runs from `lookfrom` through the pixel centre. |
| Cameras.Sky | src/camera.rs:136-139 | For a direction with `−1 ≤ y ≤ 1`, blue is exactly 1, red is in `[0.5, 1]` and green in `[0.7, 1]`. Straight down gives white and straight up gives `(0.5, 0.7, 1)`. |
| Cameras.RayColour | src/camera.rs:114-140 | At depth 0 the colour is black. Its other properties are the lemmas below: `Bounces`, `CutOffIsBlack`, `AbsorbedIsBlack`, `EarlyEndIgnoresDepth`, `NearHitsIgnored` and `ColourBounded`. |
| Cameras.Bounces | src/camera.rs:114-134 | A path bounces, that is `scatter` returns `true` along it, at most `depth` times. |
| Cameras.CutOffIsBlack | src/camera.rs:115-131 | A path that is still scattering when the depth runs out contributes black. This covers depth 0. |
| Cameras.AbsorbedIsBlack | src/camera.rs:121-133 | A hit whose material absorbs gives black, and only a metal absorbs. |
| Cameras.EarlyEndIgnoresDepth | src/camera.rs:114-134 | A path that ends before the depth runs out has the same colour and bounce count at the next depth. |
| Cameras.EarlyEndIgnoresLargerDepth | src/camera.rs:114-134 | Such a path has the same colour and bounce count at every larger depth. |
| Cameras.ScenePassive | src/hittable_list.rs:43-55 | A list of spheres whose materials are passive makes a passive world, because every record the search returns carries the material of a listed sphere. |
| Cameras.NearHitsIgnored | src/camera.rs:119-121 | A ray that meets no sphere of the list beyond 0.001 sees the sky, so hits at `t ≤ 0.001` are ignored. This includes rays with a zero direction. |
| Cameras.ColourBounded | src/camera.rs:114-139 | With albedos in the unit cube, every channel of a path's colour lies in `[0, 1]`. |
| Cameras.Sum | src/camera.rs:58-66 | The fold from zero: samples that are all black sum to black, and `n` samples in the unit cube sum to at most `n` in every channel. |
| Cameras.SampleColour | src/camera.rs:60-63 | A sample with a maximum depth of 0 is black. |
| Cameras.SampleSum | src/camera.rs:58-66 | With a maximum depth of 0, every pixel's sum is black. |
| Cameras.SampleSumBounded | src/camera.rs:58-66 | With albedos in the unit cube, a pixel's sum over `n` samples has every channel in `[0, n]`. |
| Cameras.Render | src/camera.rs:41-74 | `render` writes the header and then the pixel lines in row-major order. Each line is the zero-based sum of the pixel's samples. |
| Cameras.RenderRows | src/camera.rs:56-69 | The outer loop appends the rows top to bottom. |
| Cameras.RenderRow | src/camera.rs:57-68 | The inner loop appends the pixels of one row left to right. |
| Cameras.Header | src/camera.rs:49 | The header starts with `P3\n` and ends with `\n255\n`. Between them are two space-separated fields, which read back as the width and the height. |
| Cameras.ColourLineCount | src/colour.rs:28-36 | A pixel line holds exactly one newline. |
| Cameras.HeaderCount | src/camera.rs:49 | The header `"P3\n{w} {h}\n255\n"` is three lines. |
| Cameras.RowCount | src/camera.rs:57-68 | A row of `n` pixels is `n` lines. |
| Cameras.RowsCount | src/camera.rs:56-69 | `n` rows of width `w` are `n · w` lines. |
| Cameras.ImageLineCount | src/camera.rs:49-71 | The file is the three header lines followed by exactly `width · height` pixel lines. |

## Left out

- src/main.rs: scene construction, command-line arguments and opening the output file.
- File writing, the `"Done."` message on stderr and the `tqdm` progress bar in `render` are I/O.
- `rayon`'s parallel map is concurrency. Its collect-then-fold keeps the sample order, so the
  samples are summed sequentially in index order.
- Floating-point rounding, NaN propagation and the `as u8` conversion of non-finite values.
  Exact reals are used instead.
- The viewport geometry of `initialise`: `degrees_to_radians`, `tan`, the cross products,
  the pixel deltas and the defocus disk axes. It arrives as a `Cameras.Frame` value.
- `defocus_disk_sample`'s draw and `random_unit_vector` are random. They arrive as
  arguments.
- `linalg`'s `unit`, `reflect`, `refract`, `near_zero` and `sqrt` are not part of this
  model. They are function parameters constrained only by the laws named above.
- `impl Material for Sphere` (src/sphere.rs:75-86) only delegates to the sphere's material.
- A `scatter` that returns `false` still writes its out-parameters. `ray_colour` never reads
  them then, so the model returns `None`.
- Spheres.Hit: requires a non-zero radius, or a miss. A hit on a zero-radius sphere divides
  `p − centre` by 0 (src/sphere.rs:67), which gives a NaN normal that exact reals cannot
  represent. The misses of a zero-radius sphere, such as `Sphere::default()`, are modelled.
- HittableLists.Hit: requires every sphere of the list to have a non-zero radius, so a list
  holding a zero-radius sphere is left out as a whole, misses included. Which spheres such a
  list misses depends on the shrinking bound, and the scenes the source builds hold none.
- Dielectrics.Ratio: requires a non-zero refractive index on a front face only, where the
  source computes `1/0 = +∞`, which exact reals cannot represent. An index of 0 on a back
  face is modelled.
- Dielectrics.Scatter: requires a non-zero refractive index at a front-face hit, for the
  same reason.
- Scattering.Scatter: requires a dielectric hit on its front face to have a non-zero
  index (`Materials.CanScatter`), for the same reason.
- Cameras.RayColour: its world must answer only with hits that `Materials.CanScatter`
  accepts.
- Cameras.PixelSampleSquare: uses the corrected offset `−0.5 + r` of the finding below, not
  the `−0.5 · r` the source writes (modelled as `Cameras.PixelSampleSquareAsWritten`).
  `Cameras.GetRay`, `Cameras.SampleColour`, `Cameras.SampleSum` and `Cameras.Render`
  inherit it.
- Cameras.GetRay: uses the corrected pixel offset of the finding below, not the one
  written in the source.

## Findings

| source | as written | input that shows it | evidently intended | confidence | as-written member | corrected member |
|---|---|---|---|---|---|---|
| src/camera.rs:164-165 | `let px = -0.5 * random::<f64>()` makes the pixel offset `−0.5·r`, which lies in `(−0.5, 0]`. Every sample falls in the upper-left quarter of the pixel square, so the other three quarters are never sampled. | Any draw `r` in `[0, 1)`. An offset of `+0.25` needs `r = −0.5`, which is not a valid draw. | `-0.5 + random::<f64>()`, an offset uniform in `[−0.5, 0.5)` across the pixel's footprint. | not executed | Cameras.JitterAsWrittenOneSided | Cameras.JitterCoversPixel |

=== FILE: arith.dfy ===
/**
  Facts about products, squares and quotients of reals. Products whose sign matters
  are kept behind the names `Sq` and `Mul`, so that the solver treats them as terms
  and the sign facts below can be applied to them one at a time.
*/
module RealArith {

  function Sq(v: real): real {
    v * v
  }

  function Mul(p: real, q: real): real {
    p * q
  }

  lemma SquareNonNegative(v: real)
    ensures 0.0 <= Sq(v)
  {
  }

  lemma SquarePositive(v: real)
    requires v != 0.0
    ensures 0.0 < Sq(v)
  {
    if v > 0.0 {
      calc {
        Sq(v);
        v * v;
      > { assert v * v > 0.0 * v; }
        0.0;
      }
    } else {
      calc {
        Sq(v);
        (-v) * (-v);
      > { assert (-v) * (-v) > 0.0 * (-v); }
        0.0;
      }
    }
  }

  lemma MulPositive(p: real, q: real)
    requires 0.0 < p && 0.0 < q
    ensures 0.0 < Mul(p, q)
  {
    assert p * q > 0.0 * q;
  }

  /** A product is zero exactly when one of its factors is. */
  lemma MulZero(p: real, q: real)
    ensures Mul(p, q) == 0.0 <==> p == 0.0 || q == 0.0
  {
    if p > 0.0 && q > 0.0 {
      MulPositive(p, q);
    } else if p < 0.0 && q > 0.0 {
      MulPositive(-p, q);
      assert Mul(-p, q) == -Mul(p, q);
    } else if p > 0.0 && q < 0.0 {
      MulPositive(p, -q);
      assert Mul(p, -q) == -Mul(p, q);
    } else if p < 0.0 && q < 0.0 {
      MulPositive(-p, -q);
      assert Mul(-p, -q) == Mul(p, q);
    }
  }

  /** Squaring preserves strict order on non-negative reals. */
  lemma SquareStrictMonotone(t: real, s: real)
    requires 0.0 <= t < s
    ensures Sq(t) < Sq(s)
  {
    assert Sq(s) - Sq(t) == Mul(s - t, s + t);
    MulPositive(s - t, s + t);
  }

  /** Division by a non-zero `a` undoes multiplication by `a`. */
  lemma DivCharacterisation(x: real, a: real, t: real)
    requires a != 0.0
    ensures t == x / a <==> Mul(a, t) == x
  {
    assert Mul(a, x / a) == x;
    if Mul(a, t) == x {
      assert Mul(a, t - x / a) == Mul(a, t) - Mul(a, x / a);
      MulZero(a, t - x / a);
    }
  }

  /** Division by a positive real keeps the order of the dividends. */
  lemma DivMonotone(x: real, y: real, a: real)
    requires 0.0 < a && x <= y
    ensures x / a <= y / a
  {
  }

  /** `x · s == s` with `s` non-zero forces `x == 1`. */
  lemma MulCancel(x: real, s: real)
    requires s != 0.0
    requires Mul(x, s) == s
    ensures x == 1.0
  {
    assert Mul(x - 1.0, s) == Mul(x, s) - s;
    MulZero(x - 1.0, s);
  }

  /** A product of a non-positive and a non-negative real is non-positive. */
  lemma MulNonPositive(p: real, q: real)
    requires p <= 0.0 <= q
    ensures Mul(p, q) <= 0.0
  {
    if p < 0.0 && 0.0 < q {
      MulPositive(-p, q);
      assert Mul(-p, q) == -Mul(p, q);
    }
  }

  /** A product of two non-negative reals is non-negative. */
  lemma MulNonNegative(p: real, q: real)
    requires 0.0 <= p && 0.0 <= q
    ensures 0.0 <= Mul(p, q)
  {
    if 0.0 < p && 0.0 < q {
      MulPositive(p, q);
    }
  }

  /** A product of two reals in `[0, 1]` lies in `[0, 1]`. */
  lemma MulUnitInterval(p: real, q: real)
    requires 0.0 <= p <= 1.0 && 0.0 <= q <= 1.0
    ensures 0.0 <= Mul(p, q) <= 1.0
  {
    MulNonNegative(p, q);
    MulNonNegative(1.0 - p, q);
    assert Mul(1.0 - p, q) == q - Mul(p, q);
  }
}

=== FILE: camera.dfy ===
/**
  `Camera` from src/camera.rs: the image height chosen by `initialise`, the primary
  rays of `get_ray`, the recursive `ray_colour`, and the text `render` produces.

  The viewport geometry `initialise` derives with trigonometry and cross products is
  not part of this model: it arrives as a `Frame`. Random draws arrive as `Draws`.
*/
module Cameras {
  import opened RealArith
  import opened Wrappers
  import opened Vectors
  import opened Intervals
  import opened Rays
  import opened Casts
  import opened Materials
  import opened HitRecords
  import HittableLists
  import opened Scattering
  import opened Text
  import opened Colours
  import Spheres

  /** The largest `u32`. */
  const U32Max: nat := 0xFFFF_FFFF

  /** The public fields of `Camera` that the modelled code reads. */
  datatype Config = Config(
    aspectRatio: real,
    width: nat,
    samplesPerPixel: nat,
    maxDepth: nat,
    defocusAngle: real,
    lookfrom: Vec3)

  /** The viewport geometry: the upper-left pixel, the pixel steps and the defocus disk axes. */
  datatype Frame = Frame(pixel00: Vec3, deltaU: Vec3, deltaV: Vec3, diskU: Vec3, diskV: Vec3)

  datatype Camera = Camera(config: Config, height: nat, centre: Vec3, frame: Frame)

  /**
    `(width as f64 / aspect_ratio) as u32`, raised to 1 when below. The cast
    truncates and saturates. An aspect ratio of 0 gives `+∞` for a positive width,
    which saturates to the largest `u32`, and NaN for width 0, which casts to 0.
  */
  function ImageHeight(width: nat, aspectRatio: real): (h: nat)
    ensures 1 <= h <= U32Max
    ensures aspectRatio != 0.0 && 1.0 <= width as real / aspectRatio < (U32Max + 1) as real ==>
      h as real <= width as real / aspectRatio < (h + 1) as real
    ensures aspectRatio != 0.0 && width as real / aspectRatio < 1.0 ==> h == 1
    ensures aspectRatio == 0.0 ==> (h == U32Max <==> 0 < width)
  {
    var raw :=
      if aspectRatio == 0.0 then (if width == 0 then 0 else U32Max)
      else SaturatingCast(width as real / aspectRatio, U32Max);
    if raw < 1 then 1 else raw
  }

  /** `initialise`, as far as it is modelled: the height, and the centre placed at `lookfrom`. */
  function Initialise(config: Config, frame: Frame): (cam: Camera)
    ensures cam.config == config && cam.frame == frame
    ensures 1 <= cam.height <= U32Max
    ensures cam.centre == config.lookfrom
  {
    Camera(config, ImageHeight(config.width, config.aspectRatio), config.lookfrom, frame)
  }

  /** The random numbers one sample of one pixel draws for its primary ray. */
  datatype SampleDraws = SampleDraws(jitterU: real, jitterV: real, disk: Vec3, time: real)

  /** A `random::<f64>()` draw lies in `[0, 1)`. */
  predicate UnitDraw(r: real) {
    0.0 <= r < 1.0
  }

  /** The offset `pixel_sample_square` takes along one pixel step, as written: `-0.5 * r`. */
  function JitterAsWritten(r: real): real {
    -0.5 * r
  }

  /**
    The offset as written only reaches `(-0.5, 0]`, the half of the pixel square on
    the negative side of its centre: a quarter step on the positive side is never
    sampled.
  */
  lemma JitterAsWrittenOneSided(r: real)
    requires UnitDraw(r)
    ensures -0.5 < JitterAsWritten(r) <= 0.0
    ensures JitterAsWritten(r) != 0.25
  {
  }

  /** The offset the square `[-0.5, 0.5)` around the pixel calls for: `-0.5 + r`. */
  function Jitter(r: real): (o: real)
    ensures UnitDraw(r) <==> -0.5 <= o < 0.5
  {
    -0.5 + r
  }

  /** Every offset in the square around the pixel is reached by exactly one draw. */
  lemma JitterCoversPixel(o: real)
    requires -0.5 <= o < 0.5
    ensures UnitDraw(o + 0.5) && Jitter(o + 0.5) == o
    ensures forall r :: Jitter(r) == o ==> r == o + 0.5
  {
  }

  /**
    `pixel_sample_square` as written, with the offset of `JitterAsWritten`: for draws in
    `[0, 1)` a point of the quarter `(-0.5, 0]²` of the pixel square; zero draws give
    the pixel centre.
  */
  function PixelSampleSquareAsWritten(frame: Frame, d: SampleDraws): (p: Vec3)
    ensures UnitDraw(d.jitterU) && UnitDraw(d.jitterV) ==>
      exists ou, ov :: -0.5 < ou <= 0.0 && -0.5 < ov <= 0.0 && p == Add(Scale(ou, frame.deltaU), Scale(ov, frame.deltaV))
    ensures d.jitterU == 0.0 && d.jitterV == 0.0 ==> p == Zero
  {
    Add(Scale(JitterAsWritten(d.jitterU), frame.deltaU), Scale(JitterAsWritten(d.jitterV), frame.deltaV))
  }

  /**
    `pixel_sample_square`, with the corrected offset of `Jitter`, which `get_ray` uses: for draws in `[0, 1)` a point of
    the pixel square `[-0.5, 0.5)²` spanned by the pixel steps; the middle draws give
    the pixel centre.
  */
  function PixelSampleSquare(frame: Frame, d: SampleDraws): (p: Vec3)
    ensures UnitDraw(d.jitterU) && UnitDraw(d.jitterV) ==>
      exists ou, ov :: -0.5 <= ou < 0.5 && -0.5 <= ov < 0.5 && p == Add(Scale(ou, frame.deltaU), Scale(ov, frame.deltaV))
    ensures d.jitterU == 0.5 && d.jitterV == 0.5 ==> p == Zero
  {
    Add(Scale(Jitter(d.jitterU), frame.deltaU), Scale(Jitter(d.jitterV), frame.deltaV))
  }

  /** The centre of pixel `(i, j)`. */
  function PixelCentre(cam: Camera, i: nat, j: nat): Vec3 {
    Add(Add(cam.frame.pixel00, Scale(i as real, cam.frame.deltaU)), Scale(j as real, cam.frame.deltaV))
  }

  /**
    `defocus_disk_sample`: the centre moved by a point `p` of the unit disk along the
    disk axes. The origin stays in the lens plane through the centre, and the middle
    of the disk is the centre itself.
  */
  function DefocusDiskSample(cam: Camera, p: Vec3): (o: Vec3)
    ensures p.x == 0.0 && p.y == 0.0 ==> o == cam.centre
    ensures forall n :: Dot(n, cam.frame.diskU) == 0.0 && Dot(n, cam.frame.diskV) == 0.0 ==>
      Dot(n, Sub(o, cam.centre)) == 0.0
  {
    InPlane(cam.frame.diskU, cam.frame.diskV, p.x, p.y);
    assert Sub(Add(Add(cam.centre, Scale(p.x, cam.frame.diskU)), Scale(p.y, cam.frame.diskV)), cam.centre)
      == Add(Scale(p.x, cam.frame.diskU), Scale(p.y, cam.frame.diskV));
    Add(Add(cam.centre, Scale(p.x, cam.frame.diskU)), Scale(p.y, cam.frame.diskV))
  }

  /** A combination of two vectors is orthogonal to whatever both of them are orthogonal to. */
  lemma InPlane(u: Vec3, v: Vec3, s: real, t: real)
    ensures forall n :: Dot(n, u) == 0.0 && Dot(n, v) == 0.0 ==> Dot(n, Add(Scale(s, u), Scale(t, v))) == 0.0
  {
    forall n | Dot(n, u) == 0.0 && Dot(n, v) == 0.0
      ensures Dot(n, Add(Scale(s, u), Scale(t, v))) == 0.0
    {
      assert Dot(n, Add(Scale(s, u), Scale(t, v))) == Mul(s, Dot(n, u)) + Mul(t, Dot(n, v));
    }
  }

  /**
    `get_ray`: a ray from the camera centre (no defocus) or from the defocus disk,
    through a point sampled around pixel `(i, j)`, at a random time.
  */
  function GetRay(cam: Camera, i: nat, j: nat, d: SampleDraws): (r: Ray)
    ensures cam.config.defocusAngle <= 0.0 ==> r.origin == cam.centre
    ensures 0.0 < cam.config.defocusAngle ==> r.origin == DefocusDiskSample(cam, d.disk)
    ensures At(r, 1.0) == Add(PixelCentre(cam, i, j), PixelSampleSquare(cam.frame, d))
    ensures r.time == d.time
  {
    var pixelSample := Add(PixelCentre(cam, i, j), PixelSampleSquare(cam.frame, d));
    var origin := if cam.config.defocusAngle <= 0.0 then cam.centre else DefocusDiskSample(cam, d.disk);
    NewRay(origin, Sub(pixelSample, origin), Some(d.time))
  }

  /** With no defocus and the middle draws, the primary ray runs from `lookfrom` through the pixel centre. */
  lemma CentredRay(config: Config, frame: Frame, i: nat, j: nat, disk: Vec3, time: real)
    requires config.defocusAngle <= 0.0
    ensures
      var cam := Initialise(config, frame);
      var r := GetRay(cam, i, j, SampleDraws(0.5, 0.5, disk, time));
      r.origin == config.lookfrom && At(r, 1.0) == PixelCentre(cam, i, j)
  {
    var cam := Initialise(config, frame);
    assert PixelSampleSquare(frame, SampleDraws(0.5, 0.5, disk, time)) == Zero;
  }

  /** The background: white blended towards `(0.5, 0.7, 1)` as the direction turns upwards. */
  function Sky(unitDirection: Vec3): (c: Colour)
    ensures -1.0 <= unitDirection.y <= 1.0 ==> c.z == 1.0 && 0.5 <= c.x <= 1.0 && 0.7 <= c.y <= 1.0
    ensures unitDirection.y == -1.0 ==> c == White
    ensures unitDirection.y == 1.0 ==> c == Vec3(0.5, 0.7, 1.0)
  {
    var a := (unitDirection.y + 1.0) * 0.5;
    Add(Scale(1.0 - a, White), Scale(a, Vec3(0.5, 0.7, 1.0)))
  }

  /** The interval the world is queried with: from 0.001, so that a ray does not hit the surface it leaves. */
  const HitInterval := Interval(Fin(0.001), PosInf)

  /**
    What `ray_colour` and `render` see of the world: a `Hittable`, which for a ray and
    an interval answers with the record of its hit, if any.
  */
  type World = (Ray, Interval) -> Option<HitRecord>

  /** Every hit the world can answer with can be scattered over exact reals. */
  ghost predicate WorldWellFormed(world: World) {
    forall ray, rayT :: world(ray, rayT).Some? ==>
      CanScatter(world(ray, rayT).value.material, world(ray, rayT).value.frontFace)
  }

  /** Every material the world can answer with is passive. */
  ghost predicate WorldPassive(world: World) {
    forall ray, rayT :: world(ray, rayT).Some? ==> Passive(world(ray, rayT).value.material)
  }

  /** Spheres with a non-zero radius whose materials can scatter at either face. */
  predicate Scene(spheres: seq<Spheres.Sphere>) {
    forall j :: 0 <= j < |spheres| ==> Spheres.WellFormed(spheres[j])
  }

  /** A `HittableList` of spheres as a world. */
  function SphereWorld(spheres: seq<Spheres.Sphere>, sqrt: real -> real): World
    requires HittableLists.NonZeroRadii(spheres)
  {
    (ray: Ray, rayT: Interval) => HittableLists.Closest(spheres, ray, rayT, sqrt)
  }

  /** A scene's world answers only with the materials of its spheres, so with well-formed ones. */
  lemma SceneWellFormed(spheres: seq<Spheres.Sphere>, sqrt: real -> real)
    requires Scene(spheres)
    ensures WorldWellFormed(SphereWorld(spheres, sqrt))
  {
    forall ray, rayT | SphereWorld(spheres, sqrt)(ray, rayT).Some?
      ensures CanScatter(SphereWorld(spheres, sqrt)(ray, rayT).value.material, SphereWorld(spheres, sqrt)(ray, rayT).value.frontFace)
    {
      var m := HittableLists.Closest(spheres, ray, rayT, sqrt).value.material;
      assert m in HittableLists.MaterialsOf(spheres);
    }
  }

  /** A scene of passive spheres makes a passive world. */
  lemma ScenePassive(spheres: seq<Spheres.Sphere>, sqrt: real -> real)
    requires HittableLists.NonZeroRadii(spheres)
    requires forall j :: 0 <= j < |spheres| ==> Passive(spheres[j].material)
    ensures WorldPassive(SphereWorld(spheres, sqrt))
  {
    forall ray, rayT | SphereWorld(spheres, sqrt)(ray, rayT).Some?
      ensures Passive(SphereWorld(spheres, sqrt)(ray, rayT).value.material)
    {
      var m := HittableLists.Closest(spheres, ray, rayT, sqrt).value.material;
      assert m in HittableLists.MaterialsOf(spheres);
    }
  }

  /**
    `ray_colour`. `draws(n)` is the random unit vector the `n`-th scatter of this
    path draws; `n` counts the scatters so far.
  */
  function RayColour(ray: Ray, depth: nat, world: World, draws: nat -> Vec3, n: nat, lib: Linalg): (c: Colour)
    requires WorldWellFormed(world)
    ensures depth == 0 ==> c == Zero
    decreases depth
  {
    if depth == 0 then Zero
    else
      match world(ray, HitInterval)
      case Some(rec) =>
        (match Scatter(rec.material, ray, rec, draws(n), lib)
         case Some(s) => Hadamard(s.attenuation, RayColour(s.ray, depth - 1, world, draws, n + 1, lib))
         case None => Zero)
      case None => Sky(lib.unit(ray.direction))
  }

  /** How many times the path bounces: the `scatter` calls along it that return `true`. */
  function Bounces(ray: Ray, depth: nat, world: World, draws: nat -> Vec3, n: nat, lib: Linalg): (k: nat)
    requires WorldWellFormed(world)
    ensures k <= depth
    decreases depth
  {
    if depth == 0 then 0
    else
      match world(ray, HitInterval)
      case Some(rec) =>
        (match Scatter(rec.material, ray, rec, draws(n), lib)
         case Some(s) => 1 + Bounces(s.ray, depth - 1, world, draws, n + 1, lib)
         case None => 0)
      case None => 0
  }

  /** A hit whose material absorbs the ray gives black, and only a metal absorbs. */
  lemma AbsorbedIsBlack(ray: Ray, depth: nat, world: World, draws: nat -> Vec3, n: nat, lib: Linalg)
    requires WorldWellFormed(world) && 0 < depth
    requires world(ray, HitInterval).Some?
    requires Scatter(world(ray, HitInterval).value.material, ray, world(ray, HitInterval).value, draws(n), lib).None?
    ensures RayColour(ray, depth, world, draws, n, lib) == Zero
    ensures Bounces(ray, depth, world, draws, n, lib) == 0
    ensures world(ray, HitInterval).value.material.Metal?
  {
  }

  /** A path still scattering when the depth runs out contributes black. */
  lemma {:induction false} CutOffIsBlack(ray: Ray, depth: nat, world: World, draws: nat -> Vec3, n: nat, lib: Linalg)
    requires WorldWellFormed(world)
    requires Bounces(ray, depth, world, draws, n, lib) == depth
    ensures RayColour(ray, depth, world, draws, n, lib) == Zero
    decreases depth
  {
    if depth != 0 {
      var rec := world(ray, HitInterval).value;
      var s := Scatter(rec.material, ray, rec, draws(n), lib).value;
      CutOffIsBlack(s.ray, depth - 1, world, draws, n + 1, lib);
    }
  }

  /** A path that ends before the depth runs out does not depend on the depth. */
  lemma {:induction false} EarlyEndIgnoresDepth(ray: Ray, depth: nat, world: World, draws: nat -> Vec3, n: nat, lib: Linalg)
    requires WorldWellFormed(world)
    requires Bounces(ray, depth, world, draws, n, lib) < depth
    ensures RayColour(ray, depth + 1, world, draws, n, lib) == RayColour(ray, depth, world, draws, n, lib)
    ensures Bounces(ray, depth + 1, world, draws, n, lib) == Bounces(ray, depth, world, draws, n, lib)
    decreases depth
  {
    var hit := world(ray, HitInterval);
    if hit.Some? {
      var sc := Scatter(hit.value.material, ray, hit.value, draws(n), lib);
      if sc.Some? {
        EarlyEndIgnoresDepth(sc.value.ray, depth - 1, world, draws, n + 1, lib);
      }
    }
  }

  /** Iterating one step: a path that ends early keeps its colour and bounces at every larger depth. */
  lemma {:induction false} EarlyEndIgnoresLargerDepth(ray: Ray, depth: nat, extra: nat, world: World, draws: nat -> Vec3, n: nat, lib: Linalg)
    requires WorldWellFormed(world)
    requires Bounces(ray, depth, world, draws, n, lib) < depth
    ensures RayColour(ray, depth + extra, world, draws, n, lib) == RayColour(ray, depth, world, draws, n, lib)
    ensures Bounces(ray, depth + extra, world, draws, n, lib) == Bounces(ray, depth, world, draws, n, lib)
    decreases extra
  {
    if extra != 0 {
      EarlyEndIgnoresLargerDepth(ray, depth, extra - 1, world, draws, n, lib);
      EarlyEndIgnoresDepth(ray, depth + extra - 1, world, draws, n, lib);
    }
  }

  /**
    A ray that meets no sphere beyond 0.001 sees the sky: meeting points at 0.001 or
    closer, such as the surface the ray just left, are ignored.
  */
  lemma NearHitsIgnored(ray: Ray, depth: nat, spheres: seq<Spheres.Sphere>, draws: nat -> Vec3, n: nat, lib: Linalg)
    requires SqrtLaw(lib.sqrt)
    requires Scene(spheres) && 0 < depth
    requires forall j, t :: 0 <= j < |spheres| && Spheres.OnSurface(spheres[j], At(ray, t)) ==> t <= 0.001
    ensures WorldWellFormed(SphereWorld(spheres, lib.sqrt))
    ensures RayColour(ray, depth, SphereWorld(spheres, lib.sqrt), draws, n, lib) == Sky(lib.unit(ray.direction))
  {
    SceneWellFormed(spheres, lib.sqrt);
    if ray.direction == Zero {
      HittableLists.ZeroDirectionMisses(spheres, ray, HitInterval, lib.sqrt);
    } else {
      HittableLists.ClosestIsNearestIntersection(spheres, ray, HitInterval, lib.sqrt);
    }
    assert SphereWorld(spheres, lib.sqrt)(ray, HitInterval).None?;
  }

  /** Attenuating a colour in the unit cube by one in the unit cube stays in the unit cube. */
  lemma HadamardInUnitCube(a: Colour, b: Colour)
    requires InUnitCube(a) && InUnitCube(b)
    ensures InUnitCube(Hadamard(a, b))
  {
    MulUnitInterval(a.x, b.x);
    MulUnitInterval(a.y, b.y);
    MulUnitInterval(a.z, b.z);
  }

  /**
    In a world of passive materials every channel of a path's colour lies in
    `[0, 1]`: the sky lies there and no bounce amplifies.
  */
  lemma {:induction false} ColourBounded(ray: Ray, depth: nat, world: World, draws: nat -> Vec3, n: nat, lib: Linalg)
    requires WorldWellFormed(world) && WorldPassive(world) && UnitBoundedLaw(lib.unit)
    ensures InUnitCube(RayColour(ray, depth, world, draws, n, lib))
    decreases depth
  {
    if depth != 0 {
      var hit := world(ray, HitInterval);
      if hit.Some? {
        var rec := hit.value;
        var sc := Scatter(rec.material, ray, rec, draws(n), lib);
        if sc.Some? {
          PassiveAttenuation(rec.material, ray, rec, draws(n), lib);
          ColourBounded(sc.value.ray, depth - 1, world, draws, n + 1, lib);
          HadamardInUnitCube(sc.value.attenuation, RayColour(sc.value.ray, depth - 1, world, draws, n + 1, lib));
        }
      } else {
        assert -1.0 <= lib.unit(ray.direction).y <= 1.0;
      }
    }
  }

  /** All the random draws of a render, by pixel `(i, j)` and sample `k`. */
  datatype Draws = Draws(sample: (nat, nat, nat) -> SampleDraws, bounce: (nat, nat, nat) -> nat -> Vec3)

  /**
    `fold(Colour::zero(), |acc, c| acc + *c)` over the first `count` samples, in order:
    black samples sum to black, and samples in the unit cube to at most `count` per channel.
  */
  function Sum(samples: nat -> Colour, count: nat): (c: Colour)
    ensures AllBlack(samples, count) ==> c == Zero
    ensures AllInUnitCube(samples, count) ==> WithinCount(c, count)
    decreases count
  {
    if count == 0 then Zero
    else
      var prev, last := Sum(samples, count - 1), samples(count - 1);
      assert AllBlack(samples, count) ==> AllBlack(samples, count - 1) && last == Zero;
      assert AllInUnitCube(samples, count) ==> AllInUnitCube(samples, count - 1) && InUnitCube(last);
      AddWithinCount(prev, last, count);
      Add(prev, last)
  }

  /** The first `count` samples are black. */
  predicate AllBlack(samples: nat -> Colour, count: nat) {
    forall k :: 0 <= k < count ==> samples(k) == Zero
  }

  /** The first `count` samples lie in the unit cube. */
  predicate AllInUnitCube(samples: nat -> Colour, count: nat) {
    forall k :: 0 <= k < count ==> InUnitCube(samples(k))
  }

  /** Every channel of `c` lies in `[0, n]`. */
  predicate WithinCount(c: Colour, n: nat) {
    0.0 <= c.x <= n as real && 0.0 <= c.y <= n as real && 0.0 <= c.z <= n as real
  }

  /** Adding a colour of the unit cube raises the bound by one. */
  lemma AddWithinCount(c: Colour, d: Colour, n: nat)
    requires 0 < n
    ensures WithinCount(c, n - 1) && InUnitCube(d) ==> WithinCount(Add(c, d), n)
  {
  }

  /** The colour sample `k` of pixel `(i, j)` sees: `ray_colour` of its primary ray, black with no depth. */
  function SampleColour(cam: Camera, world: World, i: nat, j: nat, k: nat, draws: Draws, lib: Linalg): (c: Colour)
    requires WorldWellFormed(world)
    ensures cam.config.maxDepth == 0 ==> c == Zero
  {
    RayColour(GetRay(cam, i, j, draws.sample(i, j, k)), cam.config.maxDepth, world, draws.bounce(i, j, k), 0, lib)
  }

  /** The colours of the samples of pixel `(i, j)`, by sample index. */
  function PixelSamples(cam: Camera, world: World, i: nat, j: nat, draws: Draws, lib: Linalg): nat -> Colour
    requires WorldWellFormed(world)
  {
    (k: nat) => SampleColour(cam, world, i, j, k, draws, lib)
  }

  /** The colour of pixel `(i, j)` summed over its first `count` samples; black when no bounce is allowed. */
  function SampleSum(cam: Camera, world: World, i: nat, j: nat, count: nat, draws: Draws, lib: Linalg): (c: Colour)
    requires WorldWellFormed(world)
    ensures cam.config.maxDepth == 0 ==> c == Zero
  {
    Sum(PixelSamples(cam, world, i, j, draws, lib), count)
  }

  /** In a world of passive materials each channel of a pixel's sum lies in `[0, count]`. */
  lemma SampleSumBounded(cam: Camera, world: World, i: nat, j: nat, count: nat, draws: Draws, lib: Linalg)
    requires WorldWellFormed(world) && WorldPassive(world) && UnitBoundedLaw(lib.unit)
    ensures
      var c := SampleSum(cam, world, i, j, count, draws, lib);
      0.0 <= c.x <= count as real && 0.0 <= c.y <= count as real && 0.0 <= c.z <= count as real
  {
    var samples := PixelSamples(cam, world, i, j, draws, lib);
    forall k | 0 <= k < count
      ensures InUnitCube(samples(k))
    {
      var ray := GetRay(cam, i, j, draws.sample(i, j, k));
      ColourBounded(ray, cam.config.maxDepth, world, draws.bounce(i, j, k), 0, lib);
    }
  }

  /**
    The PPM header `"P3\n{width} {height}\n255\n"`: between the magic line and the
    maximum value, the two dimensions read back as written.
  */
  function Header(width: nat, height: nat): (h: string)
    ensures 8 <= |h| && h[..3] == "P3\n" && h[|h| - 5..] == "\n255\n"
    ensures
      var dims := Split(h[3..|h| - 5], ' ');
      |dims| == 2 && AllDigits(dims[0]) && AllDigits(dims[1]) &&
      ParseNat(dims[0]) == width && ParseNat(dims[1]) == height
  {
    var sw, sh := NatToString(width), NatToString(height);
    DigitsExclude(sw, ' ');
    DigitsExclude(sh, ' ');
    SplitJoin(sw, ' ', sh);
    SplitWithout(sh, ' ');
    ParseNatToString(width);
    ParseNatToString(height);
    var h := "P3\n" + sw + " " + sh + "\n255\n";
    assert h[3..|h| - 5] == sw + [' '] + sh;
    h
  }

  /** The line of pixel `(i, j)`: its sample sum, scaled and gamma corrected. */
  function PixelLine(cam: Camera, world: World, i: nat, j: nat, draws: Draws, lib: Linalg): string
    requires WorldWellFormed(world)
  {
    ColourLine(SampleSum(cam, world, i, j, cam.config.samplesPerPixel, draws, lib), cam.config.samplesPerPixel, lib.sqrt)
  }

  /** The line of every pixel, by column and row. */
  function PixelLines(cam: Camera, world: World, draws: Draws, lib: Linalg): (nat, nat) -> string
    requires WorldWellFormed(world)
  {
    (i: nat, j: nat) => PixelLine(cam, world, i, j, draws, lib)
  }

  /** The lines of the first `count` pixels of row `j`, left to right. */
  function Row(line: (nat, nat) -> string, j: nat, count: nat): string
    decreases count
  {
    if count == 0 then ""
    else Row(line, j, count - 1) + line(count - 1, j)
  }

  /** The lines of the first `count` rows of `width` pixels, top to bottom. */
  function Rows(line: (nat, nat) -> string, width: nat, count: nat): string
    decreases count
  {
    if count == 0 then ""
    else Rows(line, width, count - 1) + Row(line, count - 1, width)
  }

  /** The whole file `render` writes for `cam`: the header, then every pixel in row-major order. */
  function Image(cam: Camera, world: World, draws: Draws, lib: Linalg): string
    requires WorldWellFormed(world)
  {
    Header(cam.config.width, cam.height) + Rows(PixelLines(cam, world, draws, lib), cam.config.width, cam.height)
  }

  /** Writing the colour of pixel `(i, j)` appends the pixel's line. */
  lemma WritePixel(data: string, cam: Camera, world: World, i: nat, j: nat, draws: Draws, lib: Linalg)
    requires WorldWellFormed(world)
    ensures
      var pixel := SampleSum(cam, world, i, j, cam.config.samplesPerPixel, draws, lib);
      WriteColour(data, pixel, cam.config.samplesPerPixel, lib.sqrt) == data + PixelLines(cam, world, draws, lib)(i, j)
  {
  }

  /** Appending the line of pixel `i` extends the first `i` pixels of row `j` by one. */
  lemma RowStep(before: string, line: (nat, nat) -> string, j: nat, i: nat)
    ensures before + Row(line, j, i) + line(i, j) == before + Row(line, j, i + 1)
  {
  }

  /**
    `render`: initialise, write the header, then append one line per pixel, row by
    row, each the sum of the pixel's samples.
  */
  method Render(config: Config, frame: Frame, world: World, draws: Draws, lib: Linalg) returns (out: string)
    requires WorldWellFormed(world)
    ensures out == Image(Initialise(config, frame), world, draws, lib)
  {
    var cam := Initialise(config, frame);
    var data := RenderRows(cam, world, draws, lib);
    out := Header(config.width, cam.height) + data;
  }

  /** The outer loop of `render`: the rows of the image, top to bottom. */
  method RenderRows(cam: Camera, world: World, draws: Draws, lib: Linalg) returns (data: string)
    requires WorldWellFormed(world)
    ensures data == Rows(PixelLines(cam, world, draws, lib), cam.config.width, cam.height)
  {
    data := "";
    for j := 0 to cam.height
      invariant data == Rows(PixelLines(cam, world, draws, lib), cam.config.width, j)
    {
      data := RenderRow(data, cam, world, j, draws, lib);
    }
  }

  /** The inner loop of `render`: the pixels of row `j`, left to right, appended to `data`. */
  method RenderRow(data: string, cam: Camera, world: World, j: nat, draws: Draws, lib: Linalg) returns (out: string)
    requires WorldWellFormed(world)
    ensures out == data + Row(PixelLines(cam, world, draws, lib), j, cam.config.width)
  {
    out := data;
    for i := 0 to cam.config.width
      invariant out == data + Row(PixelLines(cam, world, draws, lib), j, i)
    {
      var pixel := SampleSum(cam, world, i, j, cam.config.samplesPerPixel, draws, lib);
      WritePixel(out, cam, world, i, j, draws, lib);
      out := WriteColour(out, pixel, cam.config.samplesPerPixel, lib.sqrt);
      RowStep(data, PixelLines(cam, world, draws, lib), j, i);
    }
  }

  /** A colour line holds exactly one newline. */
  lemma ColourLineCount(pixel: Colour, samples: nat, sqrt: real -> real)
    ensures Count(ColourLine(pixel, samples, sqrt), '\n') == 1
  {
    var (r, g, b) := Channels(pixel, samples, sqrt);
    var sr, sg, sb := NatToString(r), NatToString(g), NatToString(b);
    DigitsExclude(sr, '\n');
    DigitsExclude(sg, '\n');
    DigitsExclude(sb, '\n');
    CountAbsent(sr, '\n');
    CountAbsent(sg, '\n');
    CountAbsent(sb, '\n');
    CountSingle(' ', '\n');
    CountSingle('\n', '\n');
    CountAppend(sr, " ", '\n');
    CountAppend(sr + " ", sg, '\n');
    CountAppend(sr + " " + sg, " ", '\n');
    CountAppend(sr + " " + sg + " ", sb, '\n');
    CountAppend(sr + " " + sg + " " + sb, "\n", '\n');
  }

  /** The header holds three lines. */
  lemma HeaderCount(width: nat, height: nat)
    ensures Count(Header(width, height), '\n') == 3
  {
    var sw, sh := NatToString(width), NatToString(height);
    DigitsExclude(sw, '\n');
    DigitsExclude(sh, '\n');
    CountAbsent(sw, '\n');
    CountAbsent(sh, '\n');
    CountAbsent("P3", '\n');
    CountAbsent("255", '\n');
    CountSingle(' ', '\n');
    CountSingle('\n', '\n');
    CountAppend("P3", "\n", '\n');
    CountAppend("\n", "255", '\n');
    CountAppend("\n255", "\n", '\n');
    assert "P3" + "\n" == "P3\n";
    assert "\n" + "255" + "\n" == "\n255\n";
    CountAppend("P3\n", sw, '\n');
    CountAppend("P3\n" + sw, " ", '\n');
    CountAppend("P3\n" + sw + " ", sh, '\n');
    CountAppend("P3\n" + sw + " " + sh, "\n255\n", '\n');
  }

  /** A row of `count` pixels, one line each, is `count` lines. */
  lemma {:induction false} RowCount(line: (nat, nat) -> string, j: nat, count: nat)
    requires forall i, j' :: Count(line(i, j'), '\n') == 1
    ensures Count(Row(line, j, count), '\n') == count
    decreases count
  {
    if count != 0 {
      RowCount(line, j, count - 1);
      CountAppend(Row(line, j, count - 1), line(count - 1, j), '\n');
    }
  }

  /** `count` rows of `width` pixels are `count · width` lines. */
  lemma {:induction false} RowsCount(line: (nat, nat) -> string, width: nat, count: nat)
    requires forall i, j :: Count(line(i, j), '\n') == 1
    ensures Count(Rows(line, width, count), '\n') == count * width
    decreases count
  {
    if count != 0 {
      RowsCount(line, width, count - 1);
      RowCount(line, count - 1, width);
      CountAppend(Rows(line, width, count - 1), Row(line, count - 1, width), '\n');
      LinesOfRows(count, width);
    }
  }

  /** One more row of `width` lines. */
  lemma LinesOfRows(count: nat, width: nat)
    requires 0 < count
    ensures (count - 1) * width + width == count * width
  {
  }

  /** The rendered file is the three header lines and then exactly `width · height` pixel lines. */
  lemma ImageLineCount(cam: Camera, world: World, draws: Draws, lib: Linalg)
    requires WorldWellFormed(world)
    ensures Count(Image(cam, world, draws, lib), '\n') == 3 + cam.config.width * cam.height
  {
    var line := PixelLines(cam, world, draws, lib);
    forall i, j ensures Count(line(i, j), '\n') == 1 {
      ColourLineCount(SampleSum(cam, world, i, j, cam.config.samplesPerPixel, draws, lib), cam.config.samplesPerPixel, lib.sqrt);
    }
    HeaderCount(cam.config.width, cam.height);
    RowsCount(line, cam.config.width, cam.height);
    CountAppend(Header(cam.config.width, cam.height), Rows(line, cam.config.width, cam.height), '\n');
  }
}

=== FILE: casts.dfy ===
/** Rust's `as` conversion from `f64` to an unsigned integer type. */
module Casts {

  /**
    `x as uN` where `max` is the largest `uN`: the conversion truncates toward zero and
    saturates, so anything at or below zero becomes 0 and anything at or above `max`
    becomes `max`.
  */
  function SaturatingCast(x: real, max: nat): (r: nat)
    ensures r <= max
    ensures x <= 0.0 ==> r == 0
    ensures (max as real) <= x ==> r == max
    ensures 0.0 <= x < (max + 1) as real ==> r as real <= x < (r + 1) as real
  {
    if x <= 0.0 then 0
    else if (max as real) <= x then max
    else x.Floor
  }

  /** The conversion never reverses the order of its inputs. */
  lemma SaturatingCastMonotone(x: real, y: real, max: nat)
    requires x <= y
    ensures SaturatingCast(x, max) <= SaturatingCast(y, max)
  {
  }
}

=== FILE: colour.dfy ===
/**
  `linear_to_gamma` and `write_colour` from src/colour.rs: averaging the accumulated
  samples, gamma 2 correction, and quantisation into one line of PPM text.
*/
module Colours {
  import opened RealArith
  import opened Wrappers
  import opened Vectors
  import opened Intervals
  import opened Casts
  import opened Text

  /** `linear_to_gamma`: the square root of a positive component, 0 otherwise. */
  function LinearToGamma(c: real, sqrt: real -> real): (g: real)
    ensures c <= 0.0 ==> g == 0.0
    ensures SqrtLaw(sqrt) ==> 0.0 <= g
    ensures SqrtLaw(sqrt) && 0.0 < c ==> Sq(g) == c
  {
    if 0.0 < c then sqrt(c) else 0.0
  }

  /** The `INTENSITY` interval `[0, 0.999]` every channel is clamped into. */
  const Intensity := Interval(Fin(0.0), Fin(0.999))

  /**
    `(255. * INTENSITY.clamp(g)) as u8`: the largest value it can give is
    `255 · 0.999 = 254.745`, truncated to 254, so 255 never appears.
  */
  function Quantise(g: real): (q: nat)
    ensures q <= 254
    ensures g <= 0.0 ==> q == 0
    ensures 0.999 <= g ==> q == 254
    ensures 0.0 <= g <= 0.999 ==> q as real <= 255.0 * g < (q + 1) as real
  {
    SaturatingCast(255.0 * Clamp(Intensity, g).r, 255)
  }

  /**
    One output channel of a pixel whose component summed over `samples` samples is `c`.
    With `samples == 0` the source's scale `1.0 / 0` is `+∞`: a positive component
    becomes `+∞` and is emitted as 254; zero becomes NaN and a negative component
    `−∞`, and both are emitted as 0.
  */
  function Channel(c: real, samples: nat, sqrt: real -> real): (v: nat)
    ensures v <= 254
    ensures c <= 0.0 ==> v == 0
    ensures samples == 0 ==> (v == 254 <==> 0.0 < c)
  {
    if samples == 0 then (if 0.0 < c then 254 else 0)
    else Quantise(LinearToGamma(c / samples as real, sqrt))
  }

  /** More light in a component never gives a darker channel. */
  lemma ChannelMonotone(c1: real, c2: real, samples: nat, sqrt: real -> real)
    requires SqrtLaw(sqrt)
    requires c1 <= c2
    ensures Channel(c1, samples, sqrt) <= Channel(c2, samples, sqrt)
  {
    if 0 < samples {
      var n := samples as real;
      DivMonotone(c1, c2, n);
      var g1, g2 := LinearToGamma(c1 / n, sqrt), LinearToGamma(c2 / n, sqrt);
      if 0.0 < c1 / n {
        SqrtMonotone(sqrt, c1 / n, c2 / n);
      }
      assert g1 <= g2;
      ClampMonotone(Intensity, g1, g2);
      SaturatingCastMonotone(255.0 * Clamp(Intensity, g1).r, 255.0 * Clamp(Intensity, g2).r, 255);
    }
  }

  /** The three channels of a pixel, in the order they are written. */
  function Channels(pixel: Colour, samples: nat, sqrt: real -> real): (nat, nat, nat) {
    (Channel(pixel.x, samples, sqrt), Channel(pixel.y, samples, sqrt), Channel(pixel.z, samples, sqrt))
  }

  /** The text `"{r} {g} {b}\n"`: one line, whose only newline ends it. */
  function ColourLine(pixel: Colour, samples: nat, sqrt: real -> real): (line: string)
    ensures 0 < |line| && line[|line| - 1] == '\n'
    ensures forall k :: 0 <= k < |line| - 1 ==> line[k] != '\n'
  {
    var (r, g, b) := Channels(pixel, samples, sqrt);
    DigitsExclude(NatToString(r), '\n');
    DigitsExclude(NatToString(g), '\n');
    DigitsExclude(NatToString(b), '\n');
    NatToString(r) + " " + NatToString(g) + " " + NatToString(b) + "\n"
  }

  /** Reads one line of three space-separated decimal numbers ended by a newline. */
  function ParseColourLine(line: string): Option<(nat, nat, nat)> {
    if |line| == 0 || line[|line| - 1] != '\n' then None
    else
      var parts := Split(line[..|line| - 1], ' ');
      if |parts| == 3 && AllDigits(parts[0]) && AllDigits(parts[1]) && AllDigits(parts[2]) then
        Some((ParseNat(parts[0]), ParseNat(parts[1]), ParseNat(parts[2])))
      else None
  }

  /** Reading a written line back gives the three channels. */
  lemma ColourLineRoundTrip(pixel: Colour, samples: nat, sqrt: real -> real)
    ensures ParseColourLine(ColourLine(pixel, samples, sqrt)) == Some(Channels(pixel, samples, sqrt))
  {
    var (r, g, b) := Channels(pixel, samples, sqrt);
    var sr, sg, sb := NatToString(r), NatToString(g), NatToString(b);
    var line := ColourLine(pixel, samples, sqrt);
    assert line[..|line| - 1] == sr + [' '] + (sg + [' '] + sb);
    DigitsExclude(sr, ' ');
    DigitsExclude(sg, ' ');
    DigitsExclude(sb, ' ');
    SplitJoin(sr, ' ', sg + [' '] + sb);
    SplitJoin(sg, ' ', sb);
    SplitWithout(sb, ' ');
    ParseNatToString(r);
    ParseNatToString(g);
    ParseNatToString(b);
  }

  /**
    `write_colour`: appends exactly one line to `out`, ending in the only newline it
    adds, and keeps what `out` held.
  */
  function WriteColour(out: string, pixel: Colour, samples: nat, sqrt: real -> real): (r: string)
    ensures |out| < |r| && r[..|out|] == out
    ensures r[|r| - 1] == '\n'
    ensures forall i :: |out| <= i < |r| - 1 ==> r[i] != '\n'
    ensures ParseColourLine(r[|out|..]) == Some(Channels(pixel, samples, sqrt))
  {
    var line := ColourLine(pixel, samples, sqrt);
    ColourLineRoundTrip(pixel, samples, sqrt);
    assert (out + line)[|out|..] == line;
    out + line
  }
}

=== FILE: dielectric.dfy ===
/** `Dielectric::scatter` from src/dielectric.rs: refraction, or reflection when refraction is impossible. */
module Dielectrics {
  import opened RealArith
  import opened Wrappers
  import opened Vectors
  import opened Rays
  import opened HitRecords
  import opened Materials

  /**
    The ratio of refractive indices across the surface: `1 / index` entering through
    the front face, `index` leaving through the back. Only the front face divides.
  */
  function Ratio(frontFace: bool, refractiveIndex: real): (ri: real)
    requires frontFace ==> refractiveIndex != 0.0
    ensures frontFace ==> Mul(ri, refractiveIndex) == 1.0
    ensures !frontFace ==> ri == refractiveIndex
  {
    if frontFace then 1.0 / refractiveIndex else refractiveIndex
  }

  /** `(−unit_direction)·normal`, capped at 1 by `f64::min`. */
  function CosTheta(unitDirection: Vec3, normal: Vec3): (c: real)
    ensures c <= 1.0
    ensures Dot(Neg(unitDirection), normal) <= 1.0 ==> c == Dot(Neg(unitDirection), normal)
    ensures 1.0 < Dot(Neg(unitDirection), normal) ==> c == 1.0
  {
    var d := Dot(Neg(unitDirection), normal);
    if d <= 1.0 then d else 1.0
  }

  /**
    `ri · sin_theta > 1` with `sin_theta = √(1 − cos²)`. When `1 − cos²` is negative
    the source's square root is NaN and the comparison is false.
  */
  function CannotRefract(ri: real, cosTheta: real, sqrt: real -> real): bool {
    var sinSquared := 1.0 - Sq(cosTheta);
    if sinSquared < 0.0 then false else 1.0 < Mul(ri, sqrt(sinSquared))
  }

  /**
    Without square roots: refraction is impossible exactly when the ratio is positive
    and `ri² · (1 − cos²)`, the squared sine of the refracted angle by Snell's law,
    exceeds 1.
  */
  lemma CannotRefractIff(ri: real, cosTheta: real, sqrt: real -> real)
    requires SqrtLaw(sqrt)
    ensures CannotRefract(ri, cosTheta, sqrt) <==> 0.0 < ri && 1.0 < Mul(Sq(ri), 1.0 - Sq(cosTheta))
  {
    var sinSquared := 1.0 - Sq(cosTheta);
    SquareNonNegative(ri);
    if sinSquared < 0.0 {
      if 0.0 < Sq(ri) {
        MulPositive(Sq(ri), -sinSquared);
        assert Mul(Sq(ri), -sinSquared) == -Mul(Sq(ri), sinSquared);
      } else {
        assert Mul(Sq(ri), sinSquared) == 0.0;
      }
    } else {
      var sine := sqrt(sinSquared);
      assert 0.0 <= sine && Sq(sine) == sinSquared;
      var m := Mul(ri, sine);
      assert Mul(Sq(ri), sinSquared) == Sq(m);
      if 1.0 < m {
        SquareStrictMonotone(1.0, m);
        if ri <= 0.0 {
          MulNonPositive(ri, sine);
        }
      }
      if 0.0 < ri && 1.0 < Sq(m) {
        if m < 1.0 {
          MulNonNegative(ri, sine);
          SquareStrictMonotone(m, 1.0);
        }
        assert m != 1.0;
      }
    }
  }

  /**
    `Dielectric::scatter`: a dielectric never absorbs and does not tint. It reflects
    the normalised incoming direction when refraction is impossible and refracts it
    with the ratio otherwise. The new ray is built with a two-argument `Ray::new`, so
    its time is 0.
  */
  function Scatter(refractiveIndex: real, rayIn: Ray, rec: HitRecord, lib: Linalg): (r: Option<Scattered>)
    requires rec.frontFace ==> refractiveIndex != 0.0
    ensures r.Some?
    ensures r.value.attenuation == White
    ensures r.value.ray.origin == rec.p && r.value.ray.time == 0.0
    ensures
      var u := lib.unit(rayIn.direction);
      var ri := Ratio(rec.frontFace, refractiveIndex);
      (CannotRefract(ri, CosTheta(u, rec.normal), lib.sqrt) ==> r.value.ray.direction == lib.reflect(u, rec.normal)) &&
      (!CannotRefract(ri, CosTheta(u, rec.normal), lib.sqrt) ==> r.value.ray.direction == lib.refract(u, rec.normal, ri))
  {
    var ri := Ratio(rec.frontFace, refractiveIndex);
    var unitDirection := lib.unit(rayIn.direction);
    var cosTheta := CosTheta(unitDirection, rec.normal);
    var direction :=
      if CannotRefract(ri, cosTheta, lib.sqrt) then lib.reflect(unitDirection, rec.normal)
      else lib.refract(unitDirection, rec.normal, ri);
    Some(Scattered(White, NewRay(rec.p, direction, None)))
  }

  /**
    With a ratio of at most 1 (entering a medium at least as dense, or leaving one no
    denser) light always refracts: total internal reflection needs a ratio above 1.
  */
  lemma RatioAtMostOneRefracts(ri: real, cosTheta: real, sqrt: real -> real)
    requires SqrtLaw(sqrt)
    requires ri <= 1.0
    ensures !CannotRefract(ri, cosTheta, sqrt)
  {
    CannotRefractIff(ri, cosTheta, sqrt);
    if 0.0 < ri {
      SquareNonNegative(cosTheta);
      assert Sq(ri) <= 1.0 by {
        if ri < 1.0 {
          SquareStrictMonotone(ri, 1.0);
        }
      }
      var sinSquared := 1.0 - Sq(cosTheta);
      if 0.0 <= sinSquared {
        assert Mul(Sq(ri), sinSquared) <= sinSquared by {
          MulNonNegative(1.0 - Sq(ri), sinSquared);
          assert Mul(1.0 - Sq(ri), sinSquared) == sinSquared - Mul(Sq(ri), sinSquared);
        }
      } else {
        MulNonPositive(sinSquared, Sq(ri));
        assert Mul(sinSquared, Sq(ri)) == Mul(Sq(ri), sinSquared);
      }
    }
  }

  /** A grazing ray (`cos_theta = 0`) is reflected exactly when the ratio exceeds 1. */
  lemma GrazingReflectsAboveOne(ri: real, sqrt: real -> real)
    requires SqrtLaw(sqrt)
    ensures CannotRefract(ri, 0.0, sqrt) <==> 1.0 < ri
  {
    SqrtOne(sqrt);
    assert Sq(0.0) == 0.0;
  }

  /** Entering through the front face of glass (index at least 1) always refracts. */
  lemma FrontFaceIntoDenserRefracts(refractiveIndex: real, rayIn: Ray, rec: HitRecord, lib: Linalg)
    requires SqrtLaw(lib.sqrt)
    requires 1.0 <= refractiveIndex && rec.frontFace
    ensures Scatter(refractiveIndex, rayIn, rec, lib).value.ray.direction ==
      lib.refract(lib.unit(rayIn.direction), rec.normal, Ratio(true, refractiveIndex))
  {
    var ri := Ratio(true, refractiveIndex);
    DivCharacterisation(1.0, refractiveIndex, ri);
    assert ri <= 1.0 by {
      if 1.0 < ri {
        MulPositive(ri - 1.0, refractiveIndex);
      }
    }
    RatioAtMostOneRefracts(ri, CosTheta(lib.unit(rayIn.direction), rec.normal), lib.sqrt);
  }
}

=== FILE: hittable.dfy ===
/** `HitRecord` and its face orientation, from src/hittable.rs. */
module HitRecords {
  import opened Vectors
  import opened Rays
  import opened Materials

  datatype HitRecord = HitRecord(
    p: Vec3,
    normal: Vec3,
    material: Material,
    distance: real,
    frontFace: bool)

  /**
    `HitRecord::default()`: every field zero or false; the material is the default
    Lambertian (zero albedo), as in `Sphere::default`.
  */
  const DefaultRecord := HitRecord(Zero, Zero, Lambertian(Zero), 0.0, false)

  /** What `hit(ray, interval, &mut record) -> bool` reports and leaves in `record`. */
  datatype HitOutcome = HitOutcome(hit: bool, record: HitRecord)

  /**
    `HitRecord::set_face_normal`: the stored normal always opposes the ray, and
    `frontFace` says whether the outward normal already did.
  */
  function SetFaceNormal(rec: HitRecord, ray: Ray, outward: Vec3): (r: HitRecord)
    ensures r.frontFace <==> Dot(ray.direction, outward) < 0.0
    ensures r.normal == outward || r.normal == Neg(outward)
    ensures r.frontFace ==> r.normal == outward
    ensures !r.frontFace ==> r.normal == Neg(outward)
    ensures Dot(ray.direction, r.normal) <= 0.0
    ensures LengthSquared(r.normal) == LengthSquared(outward)
    ensures r.p == rec.p && r.material == rec.material && r.distance == rec.distance
  {
    var front := Dot(ray.direction, outward) < 0.0;
    rec.(frontFace := front, normal := if front then outward else Neg(outward))
  }
}

=== FILE: hittable_list.dfy ===
/**
  `HittableList` from src/hittable_list.rs: a growable list of spheres and the
  closest-hit search over it.
*/
module HittableLists {
  import opened Wrappers
  import opened Vectors
  import opened Intervals
  import opened Rays
  import opened HitRecords
  import Spheres
  import Materials

  datatype HittableList = HittableList(objects: seq<Spheres.Sphere>)

  /** Every sphere in the list has a non-zero radius, so each one's hit is defined. */
  predicate NonZeroRadii(objects: seq<Spheres.Sphere>) {
    forall j :: 0 <= j < |objects| ==> objects[j].radius != 0.0
  }

  /** `HittableList::new`. */
  function New(): (w: HittableList)
    ensures |w.objects| == 0
  {
    HittableList([])
  }

  /** `HittableList::from_object`. */
  function FromObject(obj: Spheres.Sphere): (w: HittableList)
    ensures |w.objects| == 1 && w.objects[0] == obj
  {
    HittableList([obj])
  }

  /** `HittableList::add`: the object goes to the back; the earlier ones keep their places. */
  function Add(w: HittableList, obj: Spheres.Sphere): (r: HittableList)
    ensures |r.objects| == |w.objects| + 1
    ensures r.objects[|w.objects|] == obj
    ensures r.objects[..|w.objects|] == w.objects
  {
    HittableList(w.objects + [obj])
  }

  /** `HittableList::clear`. */
  function Clear(w: HittableList): (r: HittableList)
    ensures r.objects == []
  {
    HittableList([])
  }

  /** The hit of one sphere against the whole interval, starting from a default record. */
  function Wide(o: Spheres.Sphere, ray: Ray, rayT: Interval, sqrt: real -> real): HitOutcome
    requires o.radius != 0.0
  {
    Spheres.Hit(o, ray, rayT, DefaultRecord, sqrt)
  }

  /** The materials of the spheres in the list. */
  function MaterialsOf(objects: seq<Spheres.Sphere>): (ms: set<Materials.Material>)
    ensures forall j :: 0 <= j < |objects| ==> objects[j].material in ms
    ensures forall m :: m in ms ==> exists j :: 0 <= j < |objects| && objects[j].material == m
    decreases |objects|
  {
    if |objects| == 0 then {}
    else
      var front := objects[..|objects| - 1];
      assert forall j :: 0 <= j < |front| ==> front[j] == objects[j];
      MaterialsOf(front) + {objects[|objects| - 1].material}
  }

  /**
    The record the closest-hit search settles on, as a left fold: each sphere is tried
    against the interval cut off at the best distance so far, and replaces the result
    only when it hits strictly closer.
  */
  function Closest(objects: seq<Spheres.Sphere>, ray: Ray, rayT: Interval, sqrt: real -> real): (r: Option<HitRecord>)
    requires NonZeroRadii(objects)
    ensures r.Some? ==> Surrounds(rayT, r.value.distance)
    ensures r.Some? ==> r.value.material in MaterialsOf(objects)
    decreases |objects|
  {
    if |objects| == 0 then None
    else
      var prev := Closest(objects[..|objects| - 1], ray, rayT, sqrt);
      var o := Spheres.Hit(objects[|objects| - 1], ray, Interval(rayT.min, Bound(prev, rayT.max)), DefaultRecord, sqrt);
      if o.hit then
        Spheres.HitTakesMaterial(objects[|objects| - 1], ray, Interval(rayT.min, Bound(prev, rayT.max)), DefaultRecord, sqrt);
        assert AtMost(Bound(prev, rayT.max), rayT.max);
        LessAtMost(Fin(o.record.distance), Bound(prev, rayT.max), rayT.max);
        Some(o.record)
      else prev
  }

  /** Each sphere's own hit against the whole interval, in list order. */
  function Outcomes(objects: seq<Spheres.Sphere>, ray: Ray, rayT: Interval, sqrt: real -> real): (outs: seq<HitOutcome>)
    requires NonZeroRadii(objects)
    ensures |outs| == |objects|
    ensures forall j :: 0 <= j < |objects| ==> outs[j] == Wide(objects[j], ray, rayT, sqrt)
    decreases |objects|
  {
    if |objects| == 0 then []
    else
      var front := objects[..|objects| - 1];
      assert forall j :: 0 <= j < |front| ==> front[j] == objects[j];
      Outcomes(front, ray, rayT, sqrt) + [Wide(objects[|objects| - 1], ray, rayT, sqrt)]
  }

  /**
    Choosing among outcomes as the search does, but over outcomes already computed
    against the whole interval: a later one wins only when it lies strictly below the
    current choice (or below `max` while there is none).
  */
  function Pick(outs: seq<HitOutcome>, max: Ext): (r: Option<HitRecord>)
    decreases |outs|
  {
    if |outs| == 0 then None
    else
      var prev := Pick(outs[..|outs| - 1], max);
      var last := outs[|outs| - 1];
      if last.hit && Less(Fin(last.record.distance), Bound(prev, max)) then Some(last.record) else prev
  }

  /**
    Outcome `k` is the first of the least distance: it hits, no outcome hits closer,
    and every earlier outcome that hits does so strictly farther away.
  */
  predicate FirstNearest(outs: seq<HitOutcome>, k: int) {
    0 <= k < |outs| && outs[k].hit &&
    forall j :: 0 <= j < |outs| && outs[j].hit ==>
      outs[k].record.distance <= outs[j].record.distance &&
      (j < k ==> outs[k].record.distance < outs[j].record.distance)
  }

  /** `Pick` finds a record exactly when some outcome hits below `max`. */
  lemma {:induction false} PickFindsAHit(outs: seq<HitOutcome>, max: Ext)
    requires forall j :: 0 <= j < |outs| && outs[j].hit ==> Less(Fin(outs[j].record.distance), max)
    ensures Pick(outs, max).Some? <==> exists j :: 0 <= j < |outs| && outs[j].hit
    decreases |outs|
  {
    if |outs| == 0 {
      return;
    }
    var n := |outs| - 1;
    var front := outs[..n];
    assert forall j :: 0 <= j < n ==> front[j] == outs[j];
    PickFindsAHit(front, max);
    if Pick(front, max).None? && outs[n].hit {
      assert Pick(outs, max) == Some(outs[n].record);
    }
  }

  /**
    When every hit lies below `max`, the record `Pick` finds is that of the first
    outcome at the least distance.
  */
  lemma {:induction false} PickIsFirstMinimum(outs: seq<HitOutcome>, max: Ext)
    requires forall j :: 0 <= j < |outs| && outs[j].hit ==> Less(Fin(outs[j].record.distance), max)
    ensures Pick(outs, max).Some? ==>
      exists k :: FirstNearest(outs, k) && Pick(outs, max).value == outs[k].record
    decreases |outs|
  {
    if |outs| == 0 {
      return;
    }
    var n := |outs| - 1;
    var front := outs[..n];
    assert forall j :: 0 <= j < n ==> front[j] == outs[j];
    PickFindsAHit(front, max);
    PickIsFirstMinimum(front, max);
    var prev := Pick(front, max);
    var last := outs[n];
    if prev.None? {
      if last.hit {
        assert Pick(outs, max) == Some(last.record);
        FirstNearestLast(outs);
      }
    } else {
      var k :| FirstNearest(front, k) && prev.value == front[k].record;
      if last.hit && last.record.distance < prev.value.distance {
        assert Pick(outs, max) == Some(last.record);
        FirstNearestLast(outs);
      } else {
        assert Pick(outs, max) == prev;
        FirstNearestKept(outs, k);
      }
    }
  }

  /** The last outcome is the first nearest when it hits strictly below every earlier hit. */
  lemma FirstNearestLast(outs: seq<HitOutcome>)
    requires 0 < |outs| && outs[|outs| - 1].hit
    requires forall j :: 0 <= j < |outs| - 1 && outs[j].hit ==>
      outs[|outs| - 1].record.distance < outs[j].record.distance
    ensures FirstNearest(outs, |outs| - 1)
  {
  }

  /** The first nearest of a prefix stays so when the next outcome misses or is no closer. */
  lemma FirstNearestKept(outs: seq<HitOutcome>, k: int)
    requires 0 < |outs| && FirstNearest(outs[..|outs| - 1], k)
    requires outs[|outs| - 1].hit ==> outs[k].record.distance <= outs[|outs| - 1].record.distance
    ensures FirstNearest(outs, k)
  {
    var front := outs[..|outs| - 1];
    forall j | 0 <= j < |outs| - 1
      ensures outs[j] == front[j]
    {
    }
  }

  /** The upper end the search cuts the interval at, once it has found `prev`. */
  function Bound(prev: Option<HitRecord>, max: Ext): Ext {
    if prev.Some? then Fin(prev.value.distance) else max
  }

  /**
    The last sphere replaces the result of the search over the ones before it exactly
    when its own hit against the whole interval lies strictly below that result.
  */
  lemma ClosestLast(objects: seq<Spheres.Sphere>, ray: Ray, rayT: Interval, sqrt: real -> real)
    requires SqrtLaw(sqrt)
    requires NonZeroRadii(objects) && 0 < |objects|
    ensures NonZeroRadii(objects[..|objects| - 1])
    ensures
      var prev := Closest(objects[..|objects| - 1], ray, rayT, sqrt);
      var last := Wide(objects[|objects| - 1], ray, rayT, sqrt);
      Closest(objects, ray, rayT, sqrt) ==
        if last.hit && Less(Fin(last.record.distance), Bound(prev, rayT.max)) then Some(last.record) else prev
  {
    var n := |objects| - 1;
    var prev := Closest(objects[..n], ray, rayT, sqrt);
    ClosestStep(objects, n, ray, rayT, DefaultRecord, sqrt);
    assert objects[..n + 1] == objects;
    Spheres.HitNarrowed(objects[n], ray, rayT.min, Bound(prev, rayT.max), rayT.max, DefaultRecord, sqrt);
  }

  /** The closest-hit search chooses among the spheres' own hits as `Pick` does. */
  lemma {:induction false} ClosestIsPick(objects: seq<Spheres.Sphere>, ray: Ray, rayT: Interval, sqrt: real -> real)
    requires SqrtLaw(sqrt)
    requires NonZeroRadii(objects)
    ensures Closest(objects, ray, rayT, sqrt) == Pick(Outcomes(objects, ray, rayT, sqrt), rayT.max)
    decreases |objects|
  {
    if |objects| == 0 {
      return;
    }
    var n := |objects| - 1;
    ClosestLast(objects, ray, rayT, sqrt);
    ClosestIsPick(objects[..n], ray, rayT, sqrt);
    var outs := Outcomes(objects, ray, rayT, sqrt);
    assert outs[..n] == Outcomes(objects[..n], ray, rayT, sqrt);
  }

  /**
    The search finds a record exactly when some sphere is hit inside the interval, and
    then it is the record of the first sphere hit at the least distance.
  */
  lemma ClosestIsFirstMinimum(objects: seq<Spheres.Sphere>, ray: Ray, rayT: Interval, sqrt: real -> real)
    requires SqrtLaw(sqrt)
    requires NonZeroRadii(objects)
    ensures Closest(objects, ray, rayT, sqrt).Some? <==>
      exists j :: 0 <= j < |objects| && Wide(objects[j], ray, rayT, sqrt).hit
    ensures Closest(objects, ray, rayT, sqrt).Some? ==>
      exists k :: FirstNearest(Outcomes(objects, ray, rayT, sqrt), k) &&
        Closest(objects, ray, rayT, sqrt).value == Wide(objects[k], ray, rayT, sqrt).record
  {
    var outs := Outcomes(objects, ray, rayT, sqrt);
    ClosestIsPick(objects, ray, rayT, sqrt);
    PickFindsAHit(outs, rayT.max);
    PickIsFirstMinimum(outs, rayT.max);
  }

  /**
    For a ray with a non-zero direction, the world reports a hit exactly when the ray
    meets some sphere strictly inside `rayT`, and the reported distance is the nearest
    such meeting point over all spheres.
  */
  lemma ClosestIsNearestIntersection(objects: seq<Spheres.Sphere>, ray: Ray, rayT: Interval, sqrt: real -> real)
    requires SqrtLaw(sqrt)
    requires NonZeroRadii(objects) && ray.direction != Zero
    ensures Closest(objects, ray, rayT, sqrt).Some? <==>
      exists j, t :: 0 <= j < |objects| && Surrounds(rayT, t) && Spheres.OnSurface(objects[j], At(ray, t))
    ensures Closest(objects, ray, rayT, sqrt).Some? ==>
      forall j, t :: 0 <= j < |objects| && Surrounds(rayT, t) && Spheres.OnSurface(objects[j], At(ray, t)) ==>
        Closest(objects, ray, rayT, sqrt).value.distance <= t
  {
    forall j | 0 <= j < |objects|
      ensures Wide(objects[j], ray, rayT, sqrt).hit <==>
        exists t :: Surrounds(rayT, t) && Spheres.OnSurface(objects[j], At(ray, t))
      ensures Wide(objects[j], ray, rayT, sqrt).hit ==>
        forall t :: Surrounds(rayT, t) && Spheres.OnSurface(objects[j], At(ray, t)) ==>
          Wide(objects[j], ray, rayT, sqrt).record.distance <= t
    {
      Spheres.HitIsNearestIntersection(objects[j], ray, rayT, DefaultRecord, sqrt);
    }
    ClosestIsFirstMinimum(objects, ray, rayT, sqrt);
  }

  /**
    One more sphere: the search over the first `i + 1` spheres is the search over the
    first `i`, replaced by sphere `i`'s hit against the interval cut at the best
    distance so far. What the record held before does not matter.
  */
  lemma ClosestStep(objects: seq<Spheres.Sphere>, i: nat, ray: Ray, rayT: Interval, tempRec: HitRecord, sqrt: real -> real)
    requires NonZeroRadii(objects) && i < |objects|
    ensures NonZeroRadii(objects[..i]) && NonZeroRadii(objects[..i + 1])
    ensures
      var prev := Closest(objects[..i], ray, rayT, sqrt);
      var o := Spheres.Hit(objects[i], ray, Interval(rayT.min, Bound(prev, rayT.max)), tempRec, sqrt);
      Closest(objects[..i + 1], ray, rayT, sqrt) == if o.hit then Some(o.record) else prev
  {
    assert objects[..i + 1][..i] == objects[..i];
    var prev := Closest(objects[..i], ray, rayT, sqrt);
    Spheres.HitWritesEveryField(objects[i], ray, Interval(rayT.min, Bound(prev, rayT.max)), tempRec, DefaultRecord, sqrt);
  }

  /** `Pick` finds nothing when no outcome hits. */
  lemma {:induction false} PickMisses(outs: seq<HitOutcome>, max: Ext)
    requires forall j :: 0 <= j < |outs| ==> !outs[j].hit
    ensures Pick(outs, max).None?
    decreases |outs|
  {
    if |outs| != 0 {
      PickMisses(outs[..|outs| - 1], max);
    }
  }

  /** A ray with a zero direction hits no sphere of the list. */
  lemma ZeroDirectionMisses(objects: seq<Spheres.Sphere>, ray: Ray, rayT: Interval, sqrt: real -> real)
    requires SqrtLaw(sqrt)
    requires NonZeroRadii(objects) && ray.direction == Zero
    ensures Closest(objects, ray, rayT, sqrt).None?
  {
    var outs := Outcomes(objects, ray, rayT, sqrt);
    forall j | 0 <= j < |outs|
      ensures !outs[j].hit
    {
      Spheres.ZeroDirectionMisses(objects[j], ray, rayT, DefaultRecord, sqrt);
    }
    ClosestIsPick(objects, ray, rayT, sqrt);
    PickMisses(outs, rayT.max);
  }

  /**
    `HittableList::hit`: one pass over the list, narrowing the interval's upper end to
    the closest hit so far. `record` is overwritten only on a hit.
  */
  method Hit(world: HittableList, ray: Ray, rayT: Interval, record: HitRecord, sqrt: real -> real)
    returns (hit: bool, rec: HitRecord)
    requires NonZeroRadii(world.objects)
    ensures hit <==> Closest(world.objects, ray, rayT, sqrt).Some?
    ensures hit ==> rec == Closest(world.objects, ray, rayT, sqrt).value
    ensures !hit ==> rec == record
  {
    var objects := world.objects;
    var tempRec := DefaultRecord;
    var closest := rayT.max;
    hit := false;
    rec := record;
    for i := 0 to |objects|
      invariant hit <==> Closest(objects[..i], ray, rayT, sqrt).Some?
      invariant !hit ==> rec == record && closest == rayT.max
      invariant hit ==> rec == Closest(objects[..i], ray, rayT, sqrt).value && closest == Fin(rec.distance)
    {
      ClosestStep(objects, i, ray, rayT, tempRec, sqrt);
      var o := Spheres.Hit(objects[i], ray, Interval(rayT.min, closest), tempRec, sqrt);
      tempRec := o.record;
      if o.hit {
        hit := true;
        closest := Fin(tempRec.distance);
        rec := tempRec;
      }
    }
    assert objects[..|objects|] == objects;
  }
}

=== FILE: interval.dfy ===
/**
  `Interval` from src/interval.rs: a pair of `f64` bounds with inclusive containment,
  exclusive surrounding and saturating clamping. Bounds may be infinite, so they are
  extended reals; the points compared with them are finite.
*/
module Intervals {

  /** An `f64` bound: a finite real or one of the two infinities. */
  datatype Ext = NegInf | Fin(r: real) | PosInf

  /** IEEE `<` on bounds. */
  predicate Less(a: Ext, b: Ext) {
    match (a, b)
    case (NegInf, NegInf) => false
    case (NegInf, _) => true
    case (Fin(x), Fin(y)) => x < y
    case (Fin(_), PosInf) => true
    case (_, _) => false
  }

  /** IEEE `<=` on bounds. */
  predicate AtMost(a: Ext, b: Ext) {
    Less(a, b) || a == b
  }

  datatype Interval = Interval(min: Ext, max: Ext)

  /** `Interval::contains`: `min <= x && x <= max`. */
  function Contains(i: Interval, x: real): (r: bool)
    ensures r ==> AtMost(i.min, i.max)
    ensures AtMost(i.min, i.max) && (i.min == Fin(x) || i.max == Fin(x)) ==> r
    ensures i.min.Fin? && i.max.Fin? ==> (r <==> i.min.r <= x <= i.max.r)
    ensures i.min == NegInf && i.max == PosInf ==> r
  {
    AtMost(i.min, Fin(x)) && AtMost(Fin(x), i.max)
  }

  /** `Interval::surrounds`: `min < x && x < max`. */
  function Surrounds(i: Interval, x: real): (r: bool)
    ensures r ==> Contains(i, x)
    ensures i.min == Fin(x) || i.max == Fin(x) ==> !r
    ensures i.min.Fin? && i.max.Fin? ==> (r <==> i.min.r < x < i.max.r)
    ensures i.min == NegInf && i.max == PosInf ==> r
  {
    Less(i.min, Fin(x)) && Less(Fin(x), i.max)
  }

  /** `Interval::clamp`: `min` below the interval, `max` above it, `x` itself otherwise. */
  function Clamp(i: Interval, x: real): (r: Ext)
    ensures AtMost(i.min, i.max) ==> AtMost(i.min, r) && AtMost(r, i.max)
    ensures Contains(i, x) ==> r == Fin(x)
    ensures !Contains(i, x) ==> r == i.min || r == i.max
    ensures i.min.Fin? && i.max.Fin? ==> r.Fin?
  {
    if Less(Fin(x), i.min) then i.min
    else if Less(i.max, Fin(x)) then i.max
    else Fin(x)
  }

  /** `Interval::empty`: from `+∞` to `-∞`. */
  function Empty(): (i: Interval)
    ensures forall x :: !Contains(i, x)
    ensures forall x :: !Surrounds(i, x)
  {
    Interval(PosInf, NegInf)
  }

  /** `Interval::universe`: from `-∞` to `+∞`. */
  function Universe(): (i: Interval)
    ensures forall x :: Contains(i, x) && Surrounds(i, x)
  {
    Interval(NegInf, PosInf)
  }

  /** Clamping a value that clamping produced changes nothing. */
  lemma ClampIdempotent(i: Interval, x: real)
    requires AtMost(i.min, i.max)
    requires Clamp(i, x).Fin?
    ensures Clamp(i, Clamp(i, x).r) == Clamp(i, x)
  {
    assert Contains(i, Clamp(i, x).r);
  }

  /** On a well-ordered interval, clamping never reverses the order of two values. */
  lemma ClampMonotone(i: Interval, x: real, y: real)
    requires AtMost(i.min, i.max)
    requires x <= y
    ensures AtMost(Clamp(i, x), Clamp(i, y))
  {
  }

  /** `<` is transitive, also through a non-strict step. */
  lemma LessAtMost(a: Ext, b: Ext, c: Ext)
    requires Less(a, b) && AtMost(b, c)
    ensures Less(a, c)
  {
  }

  /**
    Lowering the upper bound: with the lower bound kept and the new upper bound `c`
    no higher than the old one, `x` lies strictly inside the narrowed interval exactly
    when it lies strictly inside the old one and strictly below `c`.
  */
  lemma SurroundsNarrowed(min: Ext, c: Ext, max: Ext, x: real)
    requires AtMost(c, max)
    ensures Surrounds(Interval(min, c), x) <==> Surrounds(Interval(min, max), x) && Less(Fin(x), c)
  {
    if Less(Fin(x), c) {
      LessAtMost(Fin(x), c, max);
    }
  }
}

=== FILE: lambertian.dfy ===
/** `Lambertian::scatter` from src/lambertian.rs: diffuse scattering around the normal. */
module Lambertians {
  import opened Wrappers
  import opened Vectors
  import opened Rays
  import opened HitRecords
  import opened Materials

  /**
    Scatter towards `normal + draw`, where `draw` is the random unit vector the source
    draws; a sum that is near zero falls back to the normal itself. A diffuse surface
    never absorbs. The new ray is built with a two-argument `Ray::new`, so its time is 0.
  */
  function Scatter(albedo: Colour, rayIn: Ray, rec: HitRecord, draw: Vec3, lib: Linalg): (r: Option<Scattered>)
    ensures r.Some?
    ensures r.value.attenuation == albedo
    ensures r.value.ray.origin == rec.p && r.value.ray.time == 0.0
    ensures lib.nearZero(Add(rec.normal, draw)) ==> r.value.ray.direction == rec.normal
    ensures !lib.nearZero(Add(rec.normal, draw)) ==> r.value.ray.direction == Add(rec.normal, draw)
    ensures lib.nearZero(Zero) && rec.normal != Zero ==> r.value.ray.direction != Zero
  {
    var sum := Add(rec.normal, draw);
    var direction := if lib.nearZero(sum) then rec.normal else sum;
    Some(Scattered(albedo, NewRay(rec.p, direction, None)))
  }
}

=== FILE: materials.dfy ===
/**
  The closed set of materials (the `Materials` enum that src/hittable.rs stores in a
  hit record) and the result of a successful scatter.
*/
module Materials {
  import opened Vectors
  import opened Rays

  datatype Material =
    | Lambertian(albedo: Colour)
    | Metal(albedo: Colour, fuzz: real)
    | Dielectric(refractiveIndex: real)

  /**
    The scatter of `m` at a hit on the given face is defined over exact reals: only a
    front-face hit on a dielectric divides by its refractive index.
  */
  predicate CanScatter(m: Material, frontFace: bool) {
    m.Dielectric? && frontFace ==> m.refractiveIndex != 0.0
  }

  /** What `scatter` writes through its `attenuation` and `scattered` parameters. */
  datatype Scattered = Scattered(attenuation: Colour, ray: Ray)
}

=== FILE: metals.dfy ===
/** `Metal` from src/metals.rs: a fuzzed mirror. */
module Metals {
  import opened Wrappers
  import opened Vectors
  import opened Intervals
  import opened Rays
  import opened HitRecords
  import opened Materials

  /** `Metal::new`: the fuzz is clamped into `[0, 1]`. */
  function New(albedo: Colour, fuzz: real): (m: Material)
    ensures m.Metal? && m.albedo == albedo
    ensures 0.0 <= m.fuzz <= 1.0
    ensures 0.0 <= fuzz <= 1.0 ==> m.fuzz == fuzz
    ensures fuzz < 0.0 ==> m.fuzz == 0.0
    ensures 1.0 < fuzz ==> m.fuzz == 1.0
  {
    Metal(albedo, Clamp(Interval(Fin(0.0), Fin(1.0)), fuzz).r)
  }

  /** The mirror direction before fuzzing: the normalised reflection of the normalised incoming direction. */
  function Mirror(rayIn: Ray, rec: HitRecord, lib: Linalg): Vec3 {
    lib.unit(lib.reflect(lib.unit(rayIn.direction), rec.normal))
  }

  /**
    `Metal::scatter`: the mirror direction plus `fuzz` times the random unit vector
    `draw`. The ray keeps the incoming ray's time. It is absorbed when the result
    points into the surface, that is, not strictly along the normal's side.
  */
  function Scatter(albedo: Colour, fuzz: real, rayIn: Ray, rec: HitRecord, draw: Vec3, lib: Linalg): (r: Option<Scattered>)
    ensures r.Some? <==> 0.0 < Dot(Add(Mirror(rayIn, rec, lib), Scale(fuzz, draw)), rec.normal)
    ensures r.Some? ==> r.value.attenuation == albedo
    ensures r.Some? ==> r.value.ray.origin == rec.p && r.value.ray.time == rayIn.time
    ensures r.Some? ==> r.value.ray.direction == Add(Mirror(rayIn, rec, lib), Scale(fuzz, draw))
    ensures r.Some? ==> 0.0 < Dot(r.value.ray.direction, rec.normal)
  {
    var reflected := Add(Mirror(rayIn, rec, lib), Scale(fuzz, draw));
    var scattered := NewRay(rec.p, reflected, Some(rayIn.time));
    if 0.0 < Dot(scattered.direction, rec.normal) then Some(Scattered(albedo, scattered)) else None
  }

  /**
    A perfect mirror (no fuzz) with a unit normal keeps every ray that arrives against
    the normal and absorbs every ray that arrives along it or grazing it.
  */
  lemma MirrorScattersFromFront(albedo: Colour, rayIn: Ray, rec: HitRecord, draw: Vec3, lib: Linalg)
    requires UnitLaw(lib.unit) && ReflectLaw(lib.reflect)
    requires LengthSquared(rec.normal) == 1.0
    ensures Scatter(albedo, 0.0, rayIn, rec, draw, lib).Some? <==> Dot(rayIn.direction, rec.normal) < 0.0
  {
    var u := lib.unit(rayIn.direction);
    var reflected := lib.reflect(u, rec.normal);
    assert Add(Mirror(rayIn, rec, lib), Scale(0.0, draw)) == Mirror(rayIn, rec, lib);
    assert 0.0 < Dot(lib.unit(reflected), rec.normal) <==> 0.0 < Dot(reflected, rec.normal);
    assert Dot(reflected, rec.normal) == -Dot(u, rec.normal);
    assert Dot(u, rec.normal) < 0.0 <==> Dot(rayIn.direction, rec.normal) < 0.0;
  }
}

=== FILE: ray.dfy ===
/** `Ray` from src/ray.rs: an origin, a direction and a shutter time. */
module Rays {
  import opened Wrappers
  import opened Vectors

  datatype Ray = Ray(origin: Vec3, direction: Vec3, time: real)

  /** `Ray::new`: an absent time means time 0. A call with two arguments passes `None`. */
  function NewRay(origin: Vec3, direction: Vec3, time: Option<real>): (r: Ray)
    ensures r.origin == origin && r.direction == direction
    ensures time.None? ==> r.time == 0.0
    ensures time.Some? ==> r.time == time.value
  {
    Ray(origin, direction, time.UnwrapOr(0.0))
  }

  /** `Ray::at`: the point reached after travelling `t` directions from the origin. */
  function At(ray: Ray, t: real): (p: Vec3)
    ensures Sub(p, ray.origin) == Scale(t, ray.direction)
    ensures t == 0.0 ==> p == ray.origin
  {
    Add(ray.origin, Scale(t, ray.direction))
  }

  /** Advancing by `s + t` is advancing by `s` and then by `t` more directions. */
  lemma AtShift(ray: Ray, s: real, t: real)
    ensures At(ray, s + t) == Add(At(ray, s), Scale(t, ray.direction))
  {
  }

  /** The offset of a point on the ray from a fixed point `c`. */
  lemma AtOffset(ray: Ray, c: Vec3, t: real)
    ensures Sub(At(ray, t), c) == Add(Sub(ray.origin, c), Scale(t, ray.direction))
  {
  }
}

=== FILE: scatter.dfy ===
/**
  The `Material::scatter` trait method of src/material.rs, dispatched over the closed
  set of materials. `None` means the ray was absorbed.
*/
module Scattering {
  import opened Wrappers
  import opened Vectors
  import opened Rays
  import opened HitRecords
  import opened Materials
  import Lambertians
  import Metals
  import Dielectrics

  /**
    Scatter `rayIn` at the hit `rec`. `draw` is the random unit vector that the diffuse
    and metal surfaces draw; a dielectric draws none. Only a metal can absorb, and
    every scattered ray leaves from the hit point.
  */
  function Scatter(m: Material, rayIn: Ray, rec: HitRecord, draw: Vec3, lib: Linalg): (r: Option<Scattered>)
    requires CanScatter(m, rec.frontFace)
    ensures r.None? ==> m.Metal?
    ensures r.Some? ==> r.value.ray.origin == rec.p
    ensures r.Some? && !m.Dielectric? ==> r.value.attenuation == m.albedo
    ensures r.Some? && m.Dielectric? ==> r.value.attenuation == White
  {
    match m
    case Lambertian(albedo) => Lambertians.Scatter(albedo, rayIn, rec, draw, lib)
    case Metal(albedo, fuzz) => Metals.Scatter(albedo, fuzz, rayIn, rec, draw, lib)
    case Dielectric(index) => Dielectrics.Scatter(index, rayIn, rec, lib)
  }

  /** Every component of `c` lies in `[0, 1]`. */
  predicate InUnitCube(c: Colour) {
    0.0 <= c.x <= 1.0 && 0.0 <= c.y <= 1.0 && 0.0 <= c.z <= 1.0
  }

  /** A material that reflects no more light than it receives, in every channel. */
  predicate Passive(m: Material) {
    m.Lambertian? || m.Metal? ==> InUnitCube(m.albedo)
  }

  /** A passive material attenuates by a colour in the unit cube. */
  lemma PassiveAttenuation(m: Material, rayIn: Ray, rec: HitRecord, draw: Vec3, lib: Linalg)
    requires Passive(m) && CanScatter(m, rec.frontFace)
    ensures Scatter(m, rayIn, rec, draw, lib).Some? ==> InUnitCube(Scatter(m, rayIn, rec, draw, lib).value.attenuation)
  {
  }
}

=== FILE: sphere.dfy ===
/**
  `Sphere` and its ray intersection (`impl Hittable for Sphere` in src/sphere.rs):
  solve the ray–sphere quadratic and report the smaller root inside the open
  interval, or failing that the larger one.
*/
module Spheres {
  import opened RealArith
  import opened Vectors
  import opened Intervals
  import opened Rays
  import opened Materials
  import opened HitRecords
  import opened Wrappers

  datatype Sphere = Sphere(centre: Vec3, radius: real, material: Material)

  /**
    A sphere whose hits are defined over exact reals: a zero radius would make the
    outward normal `0/0`, and its material must scatter at a front-face hit, the
    stricter face. The source never builds any other sphere for its scenes.
  */
  predicate WellFormed(s: Sphere) {
    s.radius != 0.0 && CanScatter(s.material, true)
  }

  /** `p` lies on the surface of `s`. */
  predicate OnSurface(s: Sphere, p: Vec3) {
    LengthSquared(Sub(p, s.centre)) == Sq(s.radius)
  }

  /** The coefficients of `a·t² + 2·halfB·t + c`, whose roots are where the ray meets the sphere. */
  datatype Quadratic = Quadratic(a: real, halfB: real, c: real)

  function QuadraticOf(s: Sphere, ray: Ray): (q: Quadratic)
    ensures 0.0 <= q.a
    ensures q.a == 0.0 <==> ray.direction == Zero
  {
    LengthSquaredSign(ray.direction);
    var oc := Sub(ray.origin, s.centre);
    Quadratic(LengthSquared(ray.direction), Dot(oc, ray.direction), LengthSquared(oc) - Sq(s.radius))
  }

  function QuadraticValue(q: Quadratic, t: real): real {
    Mul(q.a, Sq(t)) + 2.0 * Mul(q.halfB, t) + q.c
  }

  /** The reduced discriminant `halfB² − a·c`. */
  function Discriminant(q: Quadratic): real {
    Sq(q.halfB) - Mul(q.a, q.c)
  }

  /** The root tried first, `(−halfB − √discriminant) / a`. */
  function NearRoot(q: Quadratic, sqrt: real -> real): real
    requires q.a != 0.0
  {
    (-q.halfB - sqrt(Discriminant(q))) / q.a
  }

  /** The root tried second, `(−halfB + √discriminant) / a`. */
  function FarRoot(q: Quadratic, sqrt: real -> real): real
    requires q.a != 0.0
  {
    (-q.halfB + sqrt(Discriminant(q))) / q.a
  }

  /**
    The record a successful hit leaves behind: distance and point, the outward normal
    `(p − centre) / radius` oriented against the ray, and the sphere's material.
  */
  function RecordAt(s: Sphere, ray: Ray, t: real, rec: HitRecord): (r: HitRecord)
    requires s.radius != 0.0
    ensures r.distance == t && r.p == At(ray, t) && r.material == s.material
    ensures Dot(ray.direction, r.normal) <= 0.0
    ensures r.frontFace ==> r.normal == Div(Sub(r.p, s.centre), s.radius)
    ensures !r.frontFace ==> r.normal == Neg(Div(Sub(r.p, s.centre), s.radius))
    ensures 0.0 < s.radius ==> (r.frontFace <==> Dot(ray.direction, Sub(r.p, s.centre)) < 0.0)
    ensures OnSurface(s, r.p) ==> LengthSquared(r.normal) == 1.0
  {
    var p := At(ray, t);
    var outward := Div(Sub(p, s.centre), s.radius);
    DotDiv(ray.direction, Sub(p, s.centre), s.radius);
    UnitOutwardNormal(s, p);
    SetFaceNormal(rec.(distance := t, p := p), ray, outward).(material := s.material)
  }

  /** At a point of the surface, `(p − centre) / radius` has unit length. */
  lemma UnitOutwardNormal(s: Sphere, p: Vec3)
    requires s.radius != 0.0
    ensures OnSurface(s, p) ==> LengthSquared(Div(Sub(p, s.centre), s.radius)) == 1.0
  {
    LengthSquaredDiv(Sub(p, s.centre), s.radius);
    SquarePositive(s.radius);
    if OnSurface(s, p) {
      MulCancel(LengthSquared(Div(Sub(p, s.centre), s.radius)), Sq(s.radius));
    }
  }

  /** Dividing the second factor by `k` divides the dot product by `k`. */
  lemma DotDiv(a: Vec3, b: Vec3, k: real)
    requires k != 0.0
    ensures Mul(Dot(a, Div(b, k)), k) == Dot(a, b)
  {
    assert Mul(Dot(a, Div(b, k)), k) == a.x * ((b.x / k) * k) + a.y * ((b.y / k) * k) + a.z * ((b.z / k) * k);
  }

  /**
    The root `Sphere::hit` settles on: the near root if it lies strictly inside `rayT`,
    otherwise the far root if that does, otherwise none. A zero `a` (zero direction)
    makes the source divide `0/0`; a NaN root lies in no interval, so there is no root.
  */
  function RootChoice(q: Quadratic, rayT: Interval, sqrt: real -> real): (t: Option<real>)
    ensures t.Some? ==> q.a != 0.0 && 0.0 <= Discriminant(q) && Surrounds(rayT, t.value)
    ensures Discriminant(q) < 0.0 || q.a == 0.0 ==> t.None?
    ensures q.a != 0.0 && 0.0 <= Discriminant(q) && Surrounds(rayT, NearRoot(q, sqrt)) ==>
      t == Some(NearRoot(q, sqrt))
    ensures q.a != 0.0 && 0.0 <= Discriminant(q) && !Surrounds(rayT, NearRoot(q, sqrt)) ==>
      (t.Some? <==> Surrounds(rayT, FarRoot(q, sqrt))) && (t.Some? ==> t.value == FarRoot(q, sqrt))
  {
    if Discriminant(q) < 0.0 || q.a == 0.0 then None
    else if Surrounds(rayT, NearRoot(q, sqrt)) then Some(NearRoot(q, sqrt))
    else if Surrounds(rayT, FarRoot(q, sqrt)) then Some(FarRoot(q, sqrt))
    else None
  }

  /**
    `Sphere::hit`: on a hit the record is overwritten with the chosen root's record; on
    a miss it is left as it was. A zero-radius sphere may only miss: a hit on one
    would divide by its radius.
  */
  function Hit(s: Sphere, ray: Ray, rayT: Interval, rec: HitRecord, sqrt: real -> real): (o: HitOutcome)
    requires s.radius != 0.0 || RootChoice(QuadraticOf(s, ray), rayT, sqrt).None?
    ensures !o.hit ==> o.record == rec
    ensures Discriminant(QuadraticOf(s, ray)) < 0.0 ==> !o.hit
    ensures o.hit ==> Surrounds(rayT, o.record.distance)
    ensures o.hit <==> RootChoice(QuadraticOf(s, ray), rayT, sqrt).Some?
    ensures o.hit ==> o.record == RecordAt(s, ray, RootChoice(QuadraticOf(s, ray), rayT, sqrt).value, rec)
  {
    match RootChoice(QuadraticOf(s, ray), rayT, sqrt)
    case None => HitOutcome(false, rec)
    case Some(t) => HitOutcome(true, RecordAt(s, ray, t, rec))
  }

  /** A successful hit writes every field, so what the record held before does not matter. */
  lemma HitWritesEveryField(s: Sphere, ray: Ray, rayT: Interval, rec1: HitRecord, rec2: HitRecord, sqrt: real -> real)
    requires s.radius != 0.0
    ensures Hit(s, ray, rayT, rec1, sqrt).hit == Hit(s, ray, rayT, rec2, sqrt).hit
    ensures Hit(s, ray, rayT, rec1, sqrt).hit ==>
      Hit(s, ray, rayT, rec1, sqrt).record == Hit(s, ray, rayT, rec2, sqrt).record
  {
  }

  /** A successful hit records the sphere's material. */
  lemma HitTakesMaterial(s: Sphere, ray: Ray, rayT: Interval, rec: HitRecord, sqrt: real -> real)
    requires s.radius != 0.0
    ensures Hit(s, ray, rayT, rec, sqrt).hit ==> Hit(s, ray, rayT, rec, sqrt).record.material == s.material
  {
  }

  // ---- the quadratic's algebra ----

  /** A point at parameter `t` is on the sphere exactly when `t` is a root of the quadratic. */
  lemma OnSurfaceIffRoot(s: Sphere, ray: Ray, t: real)
    ensures OnSurface(s, At(ray, t)) <==> QuadraticValue(QuadraticOf(s, ray), t) == 0.0
  {
    var oc := Sub(ray.origin, s.centre);
    AtOffset(ray, s.centre, t);
    LengthSquaredAlongLine(oc, ray.direction, t);
  }

  /** Multiplying the quadratic by `a` completes the square. */
  lemma CompletedSquare(q: Quadratic, t: real)
    ensures Mul(q.a, QuadraticValue(q, t)) == Sq(Mul(q.a, t) + q.halfB) - Discriminant(q)
  {
  }

  /** With a negative discriminant the quadratic has no real root. */
  lemma NoRootBelowZero(q: Quadratic, t: real)
    requires Discriminant(q) < 0.0
    ensures QuadraticValue(q, t) != 0.0
  {
    CompletedSquare(q, t);
    SquareNonNegative(Mul(q.a, t) + q.halfB);
    MulZero(q.a, QuadraticValue(q, t));
  }

  /** With `a ≠ 0` and a non-negative discriminant, the roots are exactly the two the source computes. */
  lemma RootsOfQuadratic(q: Quadratic, sqrt: real -> real, t: real)
    requires SqrtLaw(sqrt)
    requires q.a != 0.0 && 0.0 <= Discriminant(q)
    ensures QuadraticValue(q, t) == 0.0 <==> t == NearRoot(q, sqrt) || t == FarRoot(q, sqrt)
  {
    var root := sqrt(Discriminant(q));
    assert Sq(root) == Discriminant(q);
    var u := Mul(q.a, t) + q.halfB;
    CompletedSquare(q, t);
    assert Sq(u) - Sq(root) == Mul(u - root, u + root);
    MulZero(q.a, QuadraticValue(q, t));
    MulZero(u - root, u + root);
    DivCharacterisation(-q.halfB - root, q.a, t);
    DivCharacterisation(-q.halfB + root, q.a, t);
  }

  /** The root tried first is the smaller one. */
  lemma NearRootFirst(q: Quadratic, sqrt: real -> real)
    requires SqrtLaw(sqrt)
    requires 0.0 < q.a && 0.0 <= Discriminant(q)
    ensures NearRoot(q, sqrt) <= FarRoot(q, sqrt)
  {
    DivMonotone(-q.halfB - sqrt(Discriminant(q)), -q.halfB + sqrt(Discriminant(q)), q.a);
  }

  // ---- what a hit means ----

  /**
    For a ray with a non-zero direction, the sphere reports a hit exactly when the ray
    meets its surface strictly inside `rayT`, and the reported distance is the nearest
    such meeting point.
  */
  lemma HitIsNearestIntersection(s: Sphere, ray: Ray, rayT: Interval, rec: HitRecord, sqrt: real -> real)
    requires SqrtLaw(sqrt)
    requires s.radius != 0.0 && ray.direction != Zero
    ensures Hit(s, ray, rayT, rec, sqrt).hit <==>
      exists t :: Surrounds(rayT, t) && OnSurface(s, At(ray, t))
    ensures Hit(s, ray, rayT, rec, sqrt).hit ==>
      var d := Hit(s, ray, rayT, rec, sqrt).record.distance;
      OnSurface(s, At(ray, d)) &&
      forall t :: Surrounds(rayT, t) && OnSurface(s, At(ray, t)) ==> d <= t
  {
    var q := QuadraticOf(s, ray);
    var o := Hit(s, ray, rayT, rec, sqrt);
    if Discriminant(q) < 0.0 {
      forall t | Surrounds(rayT, t)
        ensures !OnSurface(s, At(ray, t))
      {
        OnSurfaceIffRoot(s, ray, t);
        NoRootBelowZero(q, t);
      }
    } else {
      var near, far := NearRoot(q, sqrt), FarRoot(q, sqrt);
      NearRootFirst(q, sqrt);
      forall t | Surrounds(rayT, t) && OnSurface(s, At(ray, t))
        ensures t == near || t == far
      {
        OnSurfaceIffRoot(s, ray, t);
        RootsOfQuadratic(q, sqrt, t);
      }
      if o.hit {
        OnSurfaceIffRoot(s, ray, o.record.distance);
        RootsOfQuadratic(q, sqrt, o.record.distance);
      }
    }
  }

  /** A ray with a zero direction misses every sphere: both roots are `0/0`, which no interval surrounds. */
  lemma ZeroDirectionMisses(s: Sphere, ray: Ray, rayT: Interval, rec: HitRecord, sqrt: real -> real)
    requires s.radius != 0.0 && ray.direction == Zero
    ensures !Hit(s, ray, rayT, rec, sqrt).hit
  {
    assert QuadraticOf(s, ray).a == 0.0;
  }

  /**
    A hit point is on the sphere and the stored normal has unit length and opposes
    the ray.
  */
  lemma HitOnSurface(s: Sphere, ray: Ray, rayT: Interval, rec: HitRecord, sqrt: real -> real)
    requires SqrtLaw(sqrt)
    requires s.radius != 0.0
    requires Hit(s, ray, rayT, rec, sqrt).hit
    ensures OnSurface(s, Hit(s, ray, rayT, rec, sqrt).record.p)
    ensures LengthSquared(Hit(s, ray, rayT, rec, sqrt).record.normal) == 1.0
    ensures Dot(ray.direction, Hit(s, ray, rayT, rec, sqrt).record.normal) <= 0.0
  {
    var o := Hit(s, ray, rayT, rec, sqrt);
    HitIsNearestIntersection(s, ray, rayT, rec, sqrt);
  }

  /**
    The hit against a narrowed interval `(min, c)`, with `c` at most the old upper
    bound: it succeeds exactly when the hit against `(min, max)` succeeds below `c`,
    and then it reports the same record.
  */
  lemma HitNarrowed(s: Sphere, ray: Ray, min: Ext, c: Ext, max: Ext, rec: HitRecord, sqrt: real -> real)
    requires SqrtLaw(sqrt)
    requires s.radius != 0.0
    requires AtMost(c, max)
    ensures
      var wide := Hit(s, ray, Interval(min, max), rec, sqrt);
      var narrow := Hit(s, ray, Interval(min, c), rec, sqrt);
      (narrow.hit <==> wide.hit && Less(Fin(wide.record.distance), c)) &&
      (narrow.hit ==> narrow.record == wide.record)
  {
    var q := QuadraticOf(s, ray);
    if 0.0 <= Discriminant(q) && q.a != 0.0 {
      var near, far := NearRoot(q, sqrt), FarRoot(q, sqrt);
      NearRootFirst(q, sqrt);
      SurroundsNarrowed(min, c, max, near);
      SurroundsNarrowed(min, c, max, far);
    }
  }
}

=== FILE: text.dfy ===
/**
  The text the renderer writes: decimal numerals as Rust's `{}` formatting writes an
  unsigned integer, reading them back, splitting on a separator and counting lines.
*/
module Text {

  predicate IsDigit(c: char) {
    '0' <= c <= '9'
  }

  function DigitChar(d: nat): (c: char)
    requires d < 10
    ensures IsDigit(c)
  {
    (48 + d) as char
  }

  function DigitValue(c: char): (d: nat)
    requires IsDigit(c)
    ensures d < 10
    ensures DigitChar(d) == c
  {
    (c as int - 48) as nat
  }

  predicate AllDigits(s: string) {
    forall i :: 0 <= i < |s| ==> IsDigit(s[i])
  }

  /** Digits with no leading zero: the form `{}` gives an unsigned integer. */
  predicate Canonical(s: string) {
    0 < |s| && AllDigits(s) && (s[0] == '0' ==> |s| == 1)
  }

  /** The decimal digits of `n`, most significant first, without leading zeros. */
  function NatToString(n: nat): (s: string)
    ensures Canonical(s)
    decreases n
  {
    if n < 10 then [DigitChar(n)]
    else NatToString(n / 10) + [DigitChar(n % 10)]
  }

  /** The number a string of digits denotes. */
  function ParseNat(s: string): nat
    requires AllDigits(s)
    decreases |s|
  {
    if |s| == 0 then 0
    else ParseNat(s[..|s| - 1]) * 10 + DigitValue(s[|s| - 1])
  }

  /** Reading back the text of a number gives the number. */
  lemma {:induction false} ParseNatToString(n: nat)
    ensures ParseNat(NatToString(n)) == n
    decreases n
  {
    var s := NatToString(n);
    if n < 10 {
      assert s[..0] == [];
    } else {
      ParseNatToString(n / 10);
      assert s[..|s| - 1] == NatToString(n / 10);
    }
  }

  /** A canonical string that does not start with `0` denotes a positive number. */
  lemma {:induction false} ParseNatPositive(s: string)
    requires Canonical(s) && s[0] != '0'
    ensures 1 <= ParseNat(s)
    decreases |s|
  {
    var p := s[..|s| - 1];
    if |s| == 1 {
      assert p == [];
      assert DigitChar(0) == '0';
    } else {
      assert p[0] == s[0];
      ParseNatPositive(p);
    }
  }

  /** Every canonical string is the text of the number it denotes. */
  lemma {:induction false} NatToStringParse(s: string)
    requires Canonical(s)
    ensures NatToString(ParseNat(s)) == s
    decreases |s|
  {
    var p := s[..|s| - 1];
    var d := DigitValue(s[|s| - 1]);
    if |s| == 1 {
      assert p == [];
      assert ParseNat(s) == d;
    } else {
      assert p[0] == s[0];
      assert Canonical(p);
      ParseNatPositive(p);
      NatToStringParse(p);
      var n := ParseNat(s);
      assert n == ParseNat(p) * 10 + d;
      assert n / 10 == ParseNat(p) && n % 10 == d;
      assert s == p + [s[|s| - 1]];
    }
  }

  /** A string of digits contains no character that is not a digit. */
  lemma DigitsExclude(s: string, c: char)
    requires AllDigits(s) && !IsDigit(c)
    ensures c !in s
  {
  }

  /** The pieces of `s` between occurrences of `sep`, as `str::split` gives them. */
  function Split(s: string, sep: char): (parts: seq<string>)
    ensures 1 <= |parts|
    decreases |s|
  {
    if |s| == 0 then [""]
    else if s[0] == sep then [""] + Split(s[1..], sep)
    else
      var rest := Split(s[1..], sep);
      [[s[0]] + rest[0]] + rest[1..]
  }

  /** A string without the separator is a single piece. */
  lemma {:induction false} SplitWithout(a: string, sep: char)
    requires sep !in a
    ensures Split(a, sep) == [a]
    decreases |a|
  {
    if |a| != 0 {
      SplitWithout(a[1..], sep);
      assert [a[0]] + a[1..] == a;
    }
  }

  /** Splitting after a separator-free first piece peels that piece off. */
  lemma {:induction false} SplitJoin(a: string, sep: char, b: string)
    requires sep !in a
    ensures Split(a + [sep] + b, sep) == [a] + Split(b, sep)
    decreases |a|
  {
    var s := a + [sep] + b;
    if |a| == 0 {
      assert s[1..] == b;
    } else {
      assert s[1..] == a[1..] + [sep] + b;
      SplitJoin(a[1..], sep, b);
      assert [a[0]] + a[1..] == a;
    }
  }

  /** The number of occurrences of `c` in `s`. */
  function Count(s: string, c: char): nat
    decreases |s|
  {
    if |s| == 0 then 0 else Count(s[..|s| - 1], c) + (if s[|s| - 1] == c then 1 else 0)
  }

  /** Counting over a concatenation adds the counts of the parts. */
  lemma {:induction false} CountAppend(a: string, b: string, c: char)
    ensures Count(a + b, c) == Count(a, c) + Count(b, c)
    decreases |b|
  {
    if |b| != 0 {
      var b' := b[..|b| - 1];
      assert (a + b)[..|a + b| - 1] == a + b';
      CountAppend(a, b', c);
    } else {
      assert a + b == a;
    }
  }

  /** A character that does not occur is counted zero times. */
  lemma {:induction false} CountAbsent(s: string, c: char)
    requires c !in s
    ensures Count(s, c) == 0
    decreases |s|
  {
    if |s| != 0 {
      assert c !in s[..|s| - 1];
      CountAbsent(s[..|s| - 1], c);
    }
  }

  /** A one-character string counts `c` once if it is `c`, and not at all otherwise. */
  lemma CountSingle(d: char, c: char)
    ensures Count([d], c) == if d == c then 1 else 0
  {
    assert [d][..0] == [];
  }
}

=== FILE: vectors.dfy ===
/**
  Three-component vectors over exact reals. They stand in for the `linalg` crate's
  `Point<f64, 3>` and `Vector<f64, 3>`; colours are vectors too.

  The crate's non-arithmetic primitives (square root, normalisation, mirror
  reflection, refraction and the near-zero test) are not part of this model: they
  travel as the fields of a `Linalg` value, and the few laws the proofs need about
  them are stated as predicates that a property may require.
*/
module Vectors {
  import opened RealArith

  datatype Vec3 = Vec3(x: real, y: real, z: real)

  type Colour = Vec3

  const Zero := Vec3(0.0, 0.0, 0.0)

  /** The colour `(1, 1, 1)`. */
  const White := Vec3(1.0, 1.0, 1.0)

  function Add(a: Vec3, b: Vec3): Vec3 {
    Vec3(a.x + b.x, a.y + b.y, a.z + b.z)
  }

  function Sub(a: Vec3, b: Vec3): Vec3 {
    Vec3(a.x - b.x, a.y - b.y, a.z - b.z)
  }

  function Neg(a: Vec3): Vec3 {
    Vec3(-a.x, -a.y, -a.z)
  }

  /** Multiplication by a scalar. */
  function Scale(k: real, a: Vec3): Vec3 {
    Vec3(k * a.x, k * a.y, k * a.z)
  }

  /** Division by a scalar; the source never divides a vector by zero on the paths modelled. */
  function Div(a: Vec3, k: real): Vec3
    requires k != 0.0
  {
    Vec3(a.x / k, a.y / k, a.z / k)
  }

  function Dot(a: Vec3, b: Vec3): real {
    a.x * b.x + a.y * b.y + a.z * b.z
  }

  function LengthSquared(a: Vec3): real {
    Dot(a, a)
  }

  /** Component-wise product, used to apply an attenuation to a colour. */
  function Hadamard(a: Vec3, b: Vec3): Vec3 {
    Vec3(a.x * b.x, a.y * b.y, a.z * b.z)
  }

  /** A squared length is never negative, and it is zero only for the zero vector. */
  lemma LengthSquaredSign(a: Vec3)
    ensures 0.0 <= LengthSquared(a)
    ensures LengthSquared(a) == 0.0 <==> a == Zero
  {
    assert LengthSquared(a) == Sq(a.x) + Sq(a.y) + Sq(a.z);
    SquareNonNegative(a.x);
    SquareNonNegative(a.y);
    SquareNonNegative(a.z);
    if a.x != 0.0 {
      SquarePositive(a.x);
    } else if a.y != 0.0 {
      SquarePositive(a.y);
    } else if a.z != 0.0 {
      SquarePositive(a.z);
    }
  }

  /** `|u + t·d|² = |u|² + 2t(u·d) + t²|d|²`. */
  lemma LengthSquaredAlongLine(u: Vec3, d: Vec3, t: real)
    ensures LengthSquared(Add(u, Scale(t, d)))
         == LengthSquared(u) + 2.0 * Mul(Dot(u, d), t) + Mul(LengthSquared(d), Sq(t))
  {
    var w := Add(u, Scale(t, d));
    assert w.x == u.x + t * d.x && w.y == u.y + t * d.y && w.z == u.z + t * d.z;
    SquareAlongLine(u.x, d.x, t);
    SquareAlongLine(u.y, d.y, t);
    SquareAlongLine(u.z, d.z, t);
    assert LengthSquared(w) == Sq(w.x) + Sq(w.y) + Sq(w.z);
    assert LengthSquared(u) == Sq(u.x) + Sq(u.y) + Sq(u.z);
    assert LengthSquared(d) == Sq(d.x) + Sq(d.y) + Sq(d.z);
    assert Dot(u, d) == Mul(u.x, d.x) + Mul(u.y, d.y) + Mul(u.z, d.z);
  }

  lemma SquareAlongLine(u: real, d: real, t: real)
    ensures Sq(u + t * d) == Sq(u) + 2.0 * t * Mul(u, d) + Sq(t) * Sq(d)
  {
  }

  /** Dividing by `k` divides the squared length by `k²`. */
  lemma LengthSquaredDiv(a: Vec3, k: real)
    requires k != 0.0
    ensures Mul(LengthSquared(Div(a, k)), Sq(k)) == LengthSquared(a)
  {
    SquareDiv(a.x, k);
    SquareDiv(a.y, k);
    SquareDiv(a.z, k);
    assert LengthSquared(Div(a, k)) == Sq(a.x / k) + Sq(a.y / k) + Sq(a.z / k);
    assert LengthSquared(a) == Sq(a.x) + Sq(a.y) + Sq(a.z);
  }

  lemma SquareDiv(v: real, k: real)
    requires k != 0.0
    ensures Sq(v / k) * Sq(k) == Sq(v)
  {
    assert (v / k) * k == v;
    calc {
      Sq(v / k) * Sq(k);
      ((v / k) * k) * ((v / k) * k);
      Sq(v);
    }
  }

  /** The operations of the `linalg` crate that this model does not define. */
  datatype Linalg = Linalg(
    sqrt: real -> real,
    unit: Vec3 -> Vec3,
    reflect: (Vec3, Vec3) -> Vec3,
    refract: (Vec3, Vec3, real) -> Vec3,
    nearZero: Vec3 -> bool)

  /** `f64::sqrt` on a non-negative input returns its non-negative square root. */
  ghost predicate SqrtLaw(sqrt: real -> real) {
    forall x :: 0.0 <= x ==> 0.0 <= sqrt(x) && Sq(sqrt(x)) == x
  }

  /**
    Normalising keeps a vector's direction: the sign of its dot product with any
    other vector is unchanged.
  */
  ghost predicate UnitLaw(unit: Vec3 -> Vec3) {
    forall v, w :: (0.0 < Dot(unit(v), w) <==> 0.0 < Dot(v, w)) && (Dot(unit(v), w) < 0.0 <==> Dot(v, w) < 0.0)
  }

  /**
    Mirror reflection `v − 2·(v·n)·n` about a unit normal `n` negates the component
    along `n`.
  */
  ghost predicate ReflectLaw(reflect: (Vec3, Vec3) -> Vec3) {
    forall v, n :: LengthSquared(n) == 1.0 ==> Dot(reflect(v, n), n) == -Dot(v, n)
  }

  /**
    The y component of a normalised vector lies in `[-1, 1]`. The source's `unit` of
    the zero vector is NaN; the model's `unit` is total, and this law says so.
  */
  ghost predicate UnitBoundedLaw(unit: Vec3 -> Vec3) {
    forall v :: -1.0 <= unit(v).y <= 1.0
  }

  /** The square root is monotone: a consequence of the law, not an extra assumption. */
  lemma SqrtMonotone(sqrt: real -> real, x: real, y: real)
    requires SqrtLaw(sqrt)
    requires 0.0 <= x <= y
    ensures sqrt(x) <= sqrt(y)
  {
    assert 0.0 <= sqrt(x) && Sq(sqrt(x)) == x;
    assert 0.0 <= sqrt(y) && Sq(sqrt(y)) == y;
    if sqrt(y) < sqrt(x) {
      SquareStrictMonotone(sqrt(y), sqrt(x));
    }
  }

  /** The square root of one is one. */
  lemma SqrtOne(sqrt: real -> real)
    requires SqrtLaw(sqrt)
    ensures sqrt(1.0) == 1.0
  {
    assert 0.0 <= sqrt(1.0) && Sq(sqrt(1.0)) == 1.0;
    assert Sq(1.0) == 1.0;
    if sqrt(1.0) < 1.0 {
      SquareStrictMonotone(sqrt(1.0), 1.0);
    } else if 1.0 < sqrt(1.0) {
      SquareStrictMonotone(1.0, sqrt(1.0));
    }
  }
}

=== FILE: wrappers.dfy ===
/** The optional value used for Rust's `Option<T>` and for results that may be absent. */
module Wrappers {

  datatype Option<+T> = None | Some(value: T) {

    /** The wrapped value, or `default` when there is none (Rust's `unwrap_or`). */
    function UnwrapOr(default: T): T {
      match this
      case Some(v) => v
      case None => default
    }
  }
}
